=== FILE: README.md ===
# Evidence-ingestion pipeline, modelled in Dafny

The repository collects debate evidence submitted through a web form. Every
response lands as one row of a spreadsheet. Three near-identical programs then
ingest those rows:

- `process_submission.py` polls the sheet and processes each new row;
- `app.py` is a web service with the same per-submission steps and a form webhook;
- `bot.py` is a chat bot whose `!latest` command shows recent rows as embeds.

Each submission is extracted into an eleven-field record and its Japanese quote
is translated. It then goes to two sinks: a document entry and a chat webhook
notification. Finally, one structured record `entry_<n>` is appended to an
in-memory export.

This project models that core as pure functions over immutable data. The
external services are parameters:

- the sheet is a sequence of rows;
- the translation provider is a function from text to a reply;
- the webhook POST is a function from content to a status or a raised error;
- a clock reading is a string, and each processed row has its own reading.

The modules follow the program's components:

| module | file | component |
|---|---|---|
| `Wrappers` | wrappers.dfy | `Option` / `Result` |
| `Text` | text.dfy | `str.split(", ")`, `", ".join`, decimal rendering of integers and reading them back |
| `Submissions` | submission.dfy | `extract_submission_data` |
| `Translation` | translate.dfy | `translate_text` |
| `Formatting` | formatting.dfy | the document entry and the webhook message text |
| `Records` | records.dfy | `prepare_structured_data` |
| `Delivery` | delivery.dfy | the webhook reply and the 204 rule |
| `Latest` | latest.dfy | `get_latest_submissions` (web service and bot) |
| `Monitor` | monitor.dfy | `process_submission.py`: one row, one polling cycle, the loop |
| `Service` | service.dfy | `app.py`: per-submission orchestration and the form webhook mapping |
| `Embeds` | embed.dfy | the bot's evidence embed |
| `Bot` | bot.dfy | the bot's translator, its window and the `!latest` command |

The three copies of `extract_submission_data` and `translate_text` are the same
code. Each is modelled once and used by all three programs. The only difference
is that the bot's translator can be absent when no credentials were loaded.

The bot writes the Remarks prefix as the characters `‚Äª`. That is the UTF-8
encoding of `※` read back as Mac Roman, while the other two programs write `※`.
The model keeps the bot's characters exactly as they appear in its source.

## Model

| member | source | states |
|---|---|---|
| Text.SplitJoinRoundTrip | process_submission.py:168-169 | joining the parts of `s.split(", ")` with `", "` gives `s` back |
| Text.SplitPartsSepFree | process_submission.py:168-169 | no part produced by the split contains `", "` |
| Text.SplitOfJoin | process_submission.py:168-169 | splitting a join of separator-free parts gives exactly those parts, so a field's decomposition into tags is unique |
| Text.LeadingIntOfIntToString | process_submission.py:209 | the number written with `str(n)` is read back from the front of the text whenever a non-digit follows it |
| Text.IntToStringInjective | process_submission.py:337 | two integers render to the same decimal text exactly when they are equal |
| Submissions.ParseTags | process_submission.py:168-169 | a tag field gives no tags iff it is empty; the tags rejoined with `", "` give the field back; no tag contains `", "` |
| Submissions.ParseTagsOfJoin | process_submission.py:168-169 | writing a tag list into a field and reading it back gives the same list exactly when the list is well formed (not `[""]`, no tag containing `", "`) |
| Submissions.Extract | process_submission.py:163-183 | extraction fails iff the row has fewer than 11 cells and then reports that count; otherwise cells 0–10 map positionally (writing the submission back gives the first 11 cells), the tags come from splitting cells 3 and 4, and the result is well formed |
| Submissions.ExtractIgnoresExtraColumns | app.py:154-174 | cells after the eleventh never change the extraction |
| Submissions.ExtractToRow | bot.py:217-237 | extraction inverts writing a submission as a row, for exactly the well-formed submissions |
| Translation.TranslateCall | process_submission.py:68-85 | at most one provider call; no call iff the text is empty or whitespace only, or there is no provider (bot without credentials), and then the text comes back unchanged; with a non-empty `translations` list its first entry is returned; any other outcome (raised error, no translations) gives the input back |
| Records.BuildRecord | process_submission.py:332-362 | the id reads back as entry `n`; every original field of the submission is kept and can be recovered; the title and quote translations are the translator's output on the originals; `processed_at` is the given clock reading |
| Records.RecordIdInjective | app.py:367 | `entry_<a>` equals `entry_<b>` exactly when `a == b` |
| Records.BuildRecordIds | process_submission.py:336-337 | two built records share an id exactly when they were built for the same number, whatever else differs; the builder does not deduplicate |
| Formatting.DocTagGroup | process_submission.py:214-222 | a document tag group is empty exactly when the list has no non-empty first tag |
| Formatting.ChatTagGroup | process_submission.py:263-274 | a chat tag group is empty exactly when the list has no non-empty first tag |
| Formatting.HashtagsAsJoin | process_submission.py:216-217 | the document hashtags are ` #` followed by the tags joined with ` #`; the chat hashtags are `#`, the same join, then a space |
| Formatting.RendersFromField | process_submission.py:214 | the group read from a raw field is shown exactly when the field is non-empty and does not start with `", "` |
| Formatting.TagGroupsFromField | app.py:241-249 | both tag-group styles, computed from the extracted tags, equal the raw field with each `", "` rewritten to ` #` |
| Formatting.TitleLine | process_submission.py:209 | the title line `<n>. <title> (<submitter>)` reads back as `n`, and right after the number comes `. <title> (<submitter>)` |
| Formatting.TitleLineNumber | process_submission.py:303 | whatever follows a title line, the text still starts with its entry number |
| Formatting.DocTagLine | app.py:239-249 | the tag line starts with `#<submitter>`; nothing follows it exactly when neither tag group is shown; a shown AFF group comes right after it, and otherwise a shown NEG group does |
| Formatting.DocTable | app.py:252-257 | the table block reads `n` back right after `[資料番号:`. It is the head (number, update date, English source, URL), then `【Original (Japanese)】` with the original quote, then `【English Translation】` with the translation: it starts with the head, the label and the quote, ends with the label and the translation, and its length is the sum of those parts |
| Formatting.FormatDocumentEntry | process_submission.py:205-239 | the entry is the title line, the tag line and the table block of entry `n`, so their contracts apply to it; the entry number reads back from the title and from the table head; remark and attachment pass through |
| Formatting.DocTagLineFromRow | app.py:236-249 | the document tag line of an extracted row equals the submitter's hashtag followed by each shown raw field rewritten to hashtags |
| Formatting.NotificationContent | process_submission.py:276-305 | the webhook content reads back as `n`. It starts with the title line, a blank line, the chat tag block (`[AFF]`/`[NEG]` markers), a blank line, the fenced original quote and the `**English Translation:**` label. It ends with the fenced translation, the remark line (present iff the remark is non-empty), the attachment line (always present, `なし` when empty), a blank line and the footer. Its length is the sum of those parts, so nothing else is in it |
| Formatting.ChatTagBlockFromRow | process_submission.py:262-274 | the chat tag block of an extracted row is the AFF group, a line break iff both raw fields are shown, then the NEG group, each group computed from the raw field |
| Latest.WindowStart | app.py:128 | with Python slice semantics, a positive limit selects the last `min(limit, count - 1)` rows and never the header; a zero limit selects every row; a negative limit drops that many rows from the front |
| Latest.NumberFrom | app.py:130-135 | rows from a position on are numbered by their 1-based sheet position; every numbered submission is the extraction of the row it names; numbers strictly increase and stay inside the range |
| Latest.GetLatestSubmissions | app.py:124-137 | a header-only sheet gives nothing; every result is the extraction of its own sheet row, ascending; for a positive limit every row number lies above the header and above `count - limit` |
| Latest.LatestComplete | app.py:131-135 | every extractable row of the window is returned; only rows that fail extraction are dropped |
| Latest.NumberFromAll | app.py:131-135 | when every row of a range extracts, the numbering returns one submission per row |
| Monitor.ProcessRowOutcome | process_submission.py:128-146 | a row that fails extraction yields nothing else; otherwise the document entry and the notification both carry `row_number - 1`, the record id reads back as `row_number`, the record keeps the extracted submission, and the notification counts as sent exactly when the POST of that content is answered with 204. The entry, the notification and the record are the formatted entry, the notification text and the record of the extracted submission, translated by the provider, with the record carrying the clock reading |
| Monitor.ProcessRange | process_submission.py:110-112 | the rows `lo..hi` give one report each |
| Monitor.ProcessRangeReports | process_submission.py:110-112 | report `k` is sheet row `lo + k`, handed to `process_submission` with that 1-based number, in ascending order |
| Monitor.CycleWith | process_submission.py:95-117 | a failed fetch, a header-only sheet or a sheet no longer than the offset leaves the state unchanged and processes nothing; otherwise the offset becomes the row count and `count + 1 - max(2, last + 1)` rows are processed; the offset never decreases; the export grows by exactly the processed rows' records |
| Monitor.CycleShape | process_submission.py:102-114 | a cycle either keeps the offset and processes nothing, or moves it forward past the header and reports consecutive rows from `max(2, last + 1)` up to the new offset |
| Monitor.CycleOutcomes | process_submission.py:110-112 | every report of a cycle is `process_submission` applied to its own row, with a row number between 2 and the row count and that row's own clock reading |
| Monitor.ProcessNewRows | process_submission.py:110-112 | the loop produces exactly the reports of rows `lo..hi` in ascending order and appends each processed row's record as it goes |
| Monitor.MonitorSpreadsheet | process_submission.py:95-117 | the cycle written with its guards, loop and offset update computes the same state and reports as the functional cycle |
| Monitor.RunOffsetGrows | process_submission.py:391-393 | across successive cycles the offset never decreases |
| Monitor.RunKeepsExport | process_submission.py:108-114 | across successive cycles the export is the initial export followed by the records of the processed rows, in processing order |
| Monitor.RunProcessesEachRowOnce | process_submission.py:108-114 | across successive cycles the processed sheet positions are exactly `max(2, last + 1)` up to the final offset, each once and in ascending order, whatever the sheet did in between. These are positions, not submissions: once rows are deleted, a submission that lands at a position up to the offset is never processed |
| Monitor.RunPipeline | process_submission.py:380-400 | the pipeline loop keeps the offset monotone, processes every sheet position past the starting offset up to the final one once and in order, and exports exactly the processed rows' records |
| Service.AddToDocs | app.py:230-267 | the entry is prepared exactly when every key the sink reads is present (`False` otherwise); it is the formatted entry `n` of the submission with the quote translated by the service's provider, so it carries `n` in its title and table head and starts its tag line with the submitter's hashtag. This sink builds only title, tags and table; the remark and attachment of the shared entry type are filled from the submission, although this sink does not read those keys |
| Service.SendNotification | app.py:280-345 | without a configured URL nothing is read or posted; with one, a missing key aborts before the POST; otherwise the notification text of entry `n`, with the quote translated by the service's provider, is posted to the configured URL |
| Service.Sent | app.py:340-345 | the sink reports success only for a message that was actually posted |
| Service.RecordOrderCovers | app.py:362-392 | the record builder reads every key, so it completes exactly when the dictionary has all eleven |
| Service.PrepareStructuredData | app.py:362-394 | the record is built exactly when all keys are present, and then it is the record of entry `n` with the title and quote translated by the service's provider: it reads back as entry `n`, keeps the submission and carries the clock reading; a failure names a key that is absent |
| Service.ProcessSubmission | app.py:193-217 | success iff all keys are present; on success exactly one record (entry `n`, carrying the submission) is appended, the document flag is true and the webhook flag is true iff the POST was answered with 204; on failure the export is unchanged and the missing key is reported; the webhook sink runs the same either way |
| Service.ProcessSubmissionGrows | app.py:201-202 | the export only grows, by one record exactly when the call succeeds |
| Service.CompleteSucceeds | app.py:193-210 | an extracted submission always succeeds with both sink attempts made; the webhook flag is true exactly when a URL is configured and the POST is answered with 204 |
| Service.PostedButNotRecorded | app.py:195-202 | a dictionary missing only the timestamp is still posted to a configured webhook, yet the call fails and appends no record |
| Service.Cells | app.py:525-537 | the cells exist iff every key yields a first answer; then there is one cell per key, in key order, each the key's first answer |
| Service.FormRow | app.py:525-537 | the webhook row always has eleven cells, unless some answer list is empty (the `IndexError`) |
| Service.FormRowRoundTrip | app.py:525-539 | the payload of a response with one answer per question maps back to its row, and extracting that row gives the submission back exactly when it is well formed |
| Service.FormSubmit | app.py:517-551 | for answers that are lists of strings: a JSON object without `namedValues` is rejected as invalid; an empty answer list is a server error; the extraction-failure reply can never be produced; a handled payload always succeeds as entry 1 with record id `entry_1` and appends one record |
| Embeds.Clip | bot.py:327 | a text of at most 1000 characters is unchanged; a longer one becomes its first 1000 characters followed by `...` |
| Embeds.ClipIdempotent | bot.py:327 | clipping a clipped text changes nothing |
| Embeds.QuoteValue | bot.py:324-337 | a fenced quote value never exceeds the chat service's 1024-character field limit, and a short quote is fenced unchanged |
| Embeds.EmbedTagsEmpty | bot.py:298-321 | the embed tag text is empty exactly when neither group renders, so the Tags field is added exactly when some group renders |
| Embeds.EvidenceEmbed | bot.py:313-351 | the embed title reads back as the entry number, the description names the submitter, and at most eight fields are present |
| Embeds.EmbedFieldRules | bot.py:320-351 | Tags only when a group renders; the original quote only when non-empty, clipped; the translation only when non-empty and different from the original, clipped; Source and Update Date always; URL, Attachments and Remarks only when non-empty, the remark behind its marker |
| Embeds.EmbedFieldOrder | bot.py:320-351 | any two present fields appear in the order Tags, Original Quote, English Translation, Source, Update Date, URL, Attachments, Remarks |
| Embeds.FieldNamesDistinct | bot.py:321-351 | the eight field names are pairwise different |
| Bot.BotTranslateRules | bot.py:148-165 | without credentials the provider is never called and every text comes back unchanged; with credentials the bot translates like the shared adapter |
| Bot.BotLatest | bot.py:177-200 | without credentials or when the fetch fails nothing is returned; otherwise the window's extractions of their own rows, ascending, above the header for a positive limit |
| Bot.EmbedsFor | bot.py:426-431 | one embed per submission, in order: embed `i` is the evidence embed of submission `i` with its quote translated, titled with its sheet row number |
| Bot.NoCredentialsNoTranslation | bot.py:331-337 | without credentials the embed builder shows no translation field. No command reaches this case, because without credentials the window is empty and no embed is built |
| Bot.ClampAsWritten | bot.py:416-417 | the clamp never lets a limit above 10 through and leaves every other limit unchanged |
| Bot.LatestCommand | bot.py:410-431 | the command sends the notice exactly when the clamped window is empty, and otherwise sends, in order, the evidence embed of each submission, numbered by its sheet row |
| Bot.LatestZeroShowsWholeSheet | bot.py:416-420 | with the clamp as written, `!latest 0` on a sheet whose rows all have eleven cells sends one embed per row, the header included as entry 1 |
| Bot.ClampLimit | bot.py:416-417 | the intended clamp keeps every request within `1..10` and leaves requests already in range unchanged |
| Bot.LatestCommandClamped | bot.py:410-431 | the command with the intended clamp: the notice exactly when the window is empty, otherwise the evidence embed of each submission, in order and numbered by its sheet row |
| Bot.ClampedAgrees | bot.py:416-417 | the intended clamp agrees with the clamp as written on every request of at least 1 |
| Bot.ClampedLatestBounded | bot.py:414-420 | with the intended clamp the command never sends more than ten embeds and never shows the header row |

## Left out

- Credential loading and client construction are not modelled. The bot's credentials are a boolean, and the translator is absent without them.
- Network calls are parameters:
  - the sheet read is an optional sequence of rows (`None` when it raises);
  - the translation provider is a function returning an error or a `translations` list;
  - the webhook POST is a function returning a status or a raised error;
  - the embed `channel.send` is not modelled.
- The translation languages are fixed to Japanese → English. The source passes them as defaulted arguments that no caller changes.
- The Flask and Discord wiring is left out. This covers the routes other than the `namedValues` mapping, `jsonify`, the `Service not initialized` reply, the batch route, and the help, status, ask, search and analyze commands.
- The OpenAI calls are left out. They are a thin wrapper around an external model.
- `save_structured_data` is left out because it only writes a file. The `time.sleep` and `KeyboardInterrupt` handling of `run_monitoring_loop` is left out too. The loop is modelled over a finite sequence of polls.
- `datetime.now()` is not called. Each record's `processed_at` takes a clock reading as a parameter; in the pipeline each poll supplies one reading per row number. The embed timestamp is omitted.
- Logging and `print` are left out because they are side effects only.
- A value of the wrong type in a submission dictionary is not modelled. A dictionary is a typed submission plus the set of keys present. Only a missing key can make the web service's sinks or its record builder fail.
- A form webhook body that is JSON `null`, not a JSON object, or not JSON at all makes the handler raise, and the route answers 500. The model's input is the `namedValues` entry of an object body, so those bodies are not represented.
- Service.FormSubmit: the model's answers are lists of strings. A list holding a non-string answer (`{"AFF tags": [1]}`) makes the tag split raise inside `extract_submission_data`, which returns `None`, so the route answers 400 'Failed to extract submission data'. A bare string answer is silently cut to its first character. Neither case is modelled.
- The web service's `entry_number` is an integer. Values of other types that a JSON body could carry are not modelled.
- The sinks of `process_submission.py` only prepare content, post and print, and each catches its own exceptions. An extracted submission cannot make them raise, so the row model has no exception path beyond a failed extraction.
- Embeds.EvidenceEmbed: the chat service may still reject an embed, for example a field value over its limits taken from the URL, attachment or remark. That rejection is not modelled.
- Bot.LatestCommand: an exception while sending one embed makes the bot post an error message and continue. That message is not modelled.
- The whitespace that `str.strip()` removes is enumerated as the characters for which Python's `str.isspace` is true. Unicode normalisation is not modelled.

## Findings

| source | as written | input that shows it | evidently intended | confidence | as-written member | corrected member |
|---|---|---|---|---|---|---|
| bot.py:416-417 | only limits above 10 are lowered, so `0` and negative limits reach `all_rows[-limit:]` | `!latest 0` on a sheet of 12 rows with 11 cells each: `all_rows[-0:]` is the whole sheet, so 12 embeds are sent, the header row among them as entry 1 | every request lands in `1..10`, so at most ten embeds are sent and the header is never shown | not executed | Bot.LatestZeroShowsWholeSheet | Bot.ClampedLatestBounded |

=== FILE: bot.dfy ===
/** The chat bot's `!latest` command: the latest-submissions window read with
    the bot's credentials, one evidence embed per submission. */
module Bot {
  import opened Wrappers
  import opened Text
  import opened Submissions
  import opened Translation
  import opened Latest
  import opened Embeds

  /** The bot's collaborators: whether service-account credentials were loaded,
      and the translation provider they unlock. */
  datatype BotConfig = BotConfig(credentials: bool, provider: Provider)

  /** The bot's translator: no provider at all without credentials. */
  function BotTranslator(cfg: BotConfig): Translator
  {
    if cfg.credentials then Some(cfg.provider) else None
  }

  /** Without credentials the bot never calls the provider and every text comes
      back unchanged; with them it behaves as the shared adapter. */
  lemma BotTranslateRules(cfg: BotConfig, text: string)
    ensures !cfg.credentials ==> TranslateCall(text, BotTranslator(cfg)) == Translated(text, 0)
    ensures cfg.credentials ==> TranslateCall(text, BotTranslator(cfg)) == TranslateCall(text, Some(cfg.provider))
  {
  }

  /** `get_latest_submissions` of the bot: nothing without credentials or when
      the sheet cannot be read (`fetched` is `None`); otherwise the shared
      window over the fetched rows: extractions of their own sheet rows, in
      ascending row order, and for a positive limit only rows above the header
      and above `count - limit`. */
  function BotLatest(cfg: BotConfig, fetched: Option<seq<Row>>, limit: int): (r: seq<Numbered>)
    ensures !cfg.credentials || fetched.None? ==> r == []
    ensures cfg.credentials && fetched.Some? ==> r == GetLatestSubmissions(fetched.value, limit)
    ensures fetched.Some? ==> FromRows(fetched.value, r) && Ascending(r)
    ensures fetched.Some? && limit >= 1 ==>
              var rows := fetched.value;
              Within(r, if |rows| - limit < 1 then 1 else |rows| - limit, |rows|)
  {
    if !cfg.credentials then []
    else match fetched
      case None => []
      case Some(rows) => GetLatestSubmissions(rows, limit)
  }

  /** The embed for one numbered submission, with its quote translated. */
  function EmbedFor(cfg: BotConfig, s: Numbered): Embed
  {
    EvidenceEmbed(s.rowNumber, s.submission, Translate(s.submission.quote, BotTranslator(cfg)))
  }

  /** The embeds are the submissions', one each and in order: embed `i` is the
      embed of submission `i`, and its title reads back as that submission's
      sheet row. */
  predicate NumberedEmbeds(cfg: BotConfig, embeds: seq<Embed>, subs: seq<Numbered>)
  {
    && |embeds| == |subs|
    && (forall i :: 0 <= i < |subs| ==> embeds[i] == EmbedFor(cfg, subs[i]))
    && (forall i :: 0 <= i < |subs| ==> LeadingInt(embeds[i].title) == Some(subs[i].rowNumber))
  }

  function EmbedsFor(cfg: BotConfig, subs: seq<Numbered>): (es: seq<Embed>)
    ensures NumberedEmbeds(cfg, es, subs)
  {
    seq(|subs|, i requires 0 <= i < |subs| => EmbedFor(cfg, subs[i]))
  }

  /** Without credentials the embed builder never shows a translation field.
      No command reaches this case: without credentials the window is empty,
      so no embed is built at all; the lemma is about the builder alone. */
  lemma NoCredentialsNoTranslation(cfg: BotConfig, s: Numbered)
    requires !cfg.credentials
    ensures Lookup(EmbedFor(cfg, s).fields, TranslationName) == None
  {
    var translated := Translate(s.submission.quote, BotTranslator(cfg));
    EmbedFieldRules(s.rowNumber, s.submission, translated);
  }

  // ---------------------------------------------------------------------------
  // The `!latest` command

  const MaxLatest: int := 10
  const DefaultLatest: int := 5

  /** What the command sends: the "nothing found" notice, or the embeds. */
  datatype LatestReply = NothingFound | Notifications(embeds: seq<Embed>)

  /** The argument of `!latest [number]`, defaulting to five. */
  function Requested(arg: Option<int>): int
  {
    if arg.Some? then arg.value else DefaultLatest
  }

  /** The command's clamp as written: only values above ten are lowered. */
  function ClampAsWritten(limit: int): (l: int)
    ensures l <= MaxLatest
    ensures limit <= MaxLatest ==> l == limit
  {
    if limit > MaxLatest then MaxLatest else limit
  }

  /** `!latest` as written: the clamped request goes to the window; an empty
      result sends the notice, otherwise one embed per submission in sheet
      order. */
  function LatestCommand(cfg: BotConfig, fetched: Option<seq<Row>>, arg: Option<int>): (r: LatestReply)
    ensures !cfg.credentials || fetched.None? ==> r == NothingFound
    ensures var subs := BotLatest(cfg, fetched, ClampAsWritten(Requested(arg)));
            (r.NothingFound? <==> subs == []) && (r.Notifications? ==> NumberedEmbeds(cfg, r.embeds, subs))
  {
    var subs := BotLatest(cfg, fetched, ClampAsWritten(Requested(arg)));
    if subs == [] then NothingFound else Notifications(EmbedsFor(cfg, subs))
  }

  /** A zero limit is not clamped, and `all_rows[-0:]` is the whole sheet: on a
      sheet whose rows all have eleven cells, `!latest 0` sends one embed per
      row, header row included as entry 1, and so more than ten whenever the
      sheet has more than ten rows. */
  lemma LatestZeroShowsWholeSheet(cfg: BotConfig, rows: seq<Row>)
    requires cfg.credentials && |rows| >= 2
    requires forall j :: 0 <= j < |rows| ==> |rows[j]| >= FieldCount
    ensures var r := LatestCommand(cfg, Some(rows), Some(0));
            && r.Notifications?
            && |r.embeds| == |rows|
            && LeadingInt(r.embeds[0].title) == Some(1)
  {
    assert WindowStart(|rows|, 0) == 0;
    NumberFromAll(rows, 0);
    NumberFromStep(rows, 0);
    var subs := GetLatestSubmissions(rows, 0);
    assert subs[0].rowNumber == 1;
  }

  // ---------------------------------------------------------------------------
  // The clamp as intended

  /** The clamp as intended: every request lands in `1..10`. */
  function ClampLimit(limit: int): (l: int)
    ensures 1 <= l <= MaxLatest
    ensures 1 <= limit <= MaxLatest ==> l == limit
  {
    if limit > MaxLatest then MaxLatest else if limit < 1 then 1 else limit
  }

  /** `!latest` with the intended clamp. */
  function LatestCommandClamped(cfg: BotConfig, fetched: Option<seq<Row>>, arg: Option<int>)
    : (r: LatestReply)
    ensures !cfg.credentials || fetched.None? ==> r == NothingFound
    ensures var subs := BotLatest(cfg, fetched, ClampLimit(Requested(arg)));
            (r.NothingFound? <==> subs == []) && (r.Notifications? ==> NumberedEmbeds(cfg, r.embeds, subs))
  {
    var subs := BotLatest(cfg, fetched, ClampLimit(Requested(arg)));
    if subs == [] then NothingFound else Notifications(EmbedsFor(cfg, subs))
  }

  /** Both versions agree on every request of at least one. */
  lemma ClampedAgrees(cfg: BotConfig, fetched: Option<seq<Row>>, arg: Option<int>)
    requires Requested(arg) >= 1
    ensures LatestCommandClamped(cfg, fetched, arg) == LatestCommand(cfg, fetched, arg)
  {
  }

  /** Ascending row numbers inside `(lo, hi]` are at most `hi - lo` many. */
  lemma {:induction false} AscendingWithin(r: seq<Numbered>, lo: int, hi: int)
    requires lo <= hi && Within(r, lo, hi) && Ascending(r)
    ensures |r| <= hi - lo
    decreases |r|
  {
    if |r| > 0 {
      var rest := r[1..];
      assert forall k :: 0 <= k < |rest| ==> rest[k] == r[k + 1];
      assert Within(rest, r[0].rowNumber, hi);
      AscendingWithin(rest, r[0].rowNumber, hi);
    }
  }

  /** With the intended clamp the command never sends more than ten embeds and
      never shows the header row. */
  lemma ClampedLatestBounded(cfg: BotConfig, fetched: Option<seq<Row>>, arg: Option<int>)
    ensures var r := LatestCommandClamped(cfg, fetched, arg);
            r.Notifications? ==>
              && |r.embeds| <= MaxLatest
              && forall i :: 0 <= i < |r.embeds| ==> LeadingInt(r.embeds[i].title) != Some(1)
  {
    var limit := ClampLimit(Requested(arg));
    var subs := BotLatest(cfg, fetched, limit);
    if subs != [] {
      var rows := fetched.value;
      var lo := if |rows| - limit < 1 then 1 else |rows| - limit;
      AscendingWithin(subs, lo, |rows|);
    }
  }
}

=== FILE: delivery.dfy ===
/** The chat webhook as the pipeline sees it: one POST of the message content. */
module Delivery {

  /** What a webhook POST yields: an HTTP status, or an exception from the client. */
  datatype PostReply = Status(code: int) | PostRaised

  /** The POST to the configured webhook URL, as a function of the message content. */
  type Transport = string -> PostReply

  /** The status the webhook answers with when it accepted the message. */
  const NoContent: int := 204

  /** A delivery counts as sent only on status 204; any other status or an
      exception is a failure. */
  predicate Accepted(reply: PostReply)
  {
    reply == Status(NoContent)
  }
}

=== FILE: embed.dfy ===
/** The chat bot's evidence embed: a title, a description and a list of named
    fields, each field shown only under its own rule. */
module Embeds {
  import opened Wrappers
  import opened Text
  import opened Submissions
  import opened Formatting

  datatype Field = Field(name: string, value: string, inline: bool)

  /** An embed as the bot sends it (the timestamp is not modelled). */
  datatype Embed = Embed(title: string, description: string, color: int, fields: seq<Field>)

  const Green: int := 0x00ff00

  /** The field names, in the order the bot adds them. */
  const TagsName: string := "Tags"
  const OriginalName: string := "Original Quote (Japanese)"
  const TranslationName: string := "English Translation"
  const SourceName: string := "Source"
  const UpdateName: string := "Update Date"
  const UrlName: string := "URL"
  const AttachmentsName: string := "Attachments"
  const RemarksName: string := "Remarks"

  const FieldNames: seq<string> :=
    [TagsName, OriginalName, TranslationName, SourceName, UpdateName, UrlName, AttachmentsName,
     RemarksName]

  /** The prefix of the Remarks value, byte for byte as the bot source writes it. */
  const RemarkMarker: string := "‚Äª"

  // ---------------------------------------------------------------------------
  // Quote truncation

  const ClipLength: nat := 1000
  const Ellipsis: string := "..."

  /** The first thousand characters, followed by `...` when the text was longer. */
  function Clip(text: string): (r: string)
    ensures |r| <= ClipLength + |Ellipsis|
    ensures |text| <= ClipLength ==> r == text
    ensures |text| > ClipLength ==>
              |r| == ClipLength + |Ellipsis| && r[..ClipLength] == text[..ClipLength]
              && r[ClipLength..] == Ellipsis
  {
    if |text| > ClipLength then text[..ClipLength] + Ellipsis else text
  }

  /** Clipping an already clipped text changes nothing. */
  lemma ClipIdempotent(text: string)
    ensures Clip(Clip(text)) == Clip(text)
  {
    if |text| > ClipLength {
      assert Clip(text)[..ClipLength] == text[..ClipLength];
    }
  }

  /** A quote field's value: the clipped text inside a code fence. It fits the
      chat service's 1024-character field limit whatever the quote's length. */
  function QuoteValue(text: string): (r: string)
    ensures |r| <= 1024
    ensures |text| <= ClipLength ==> r == "```" + text + "```"
  {
    "```" + Clip(text) + "```"
  }

  // ---------------------------------------------------------------------------
  // Fields

  /** The value of the first field called `name`. */
  function Lookup(fields: seq<Field>, name: string): Option<string>
    decreases |fields|
  {
    if |fields| == 0 then None
    else if fields[0].name == name then Some(fields[0].value)
    else Lookup(fields[1..], name)
  }

  /** The fields of the slots that are filled, in slot order. */
  function Present(slots: seq<Option<Field>>): (r: seq<Field>)
    ensures |r| <= |slots|
    decreases |slots|
  {
    if |slots| == 0 then []
    else (if slots[0].Some? then [slots[0].value] else []) + Present(slots[1..])
  }

  /** Slot `k` holds, when filled, a field called `names[k]`. */
  predicate SlotsNamed(slots: seq<Option<Field>>, names: seq<string>)
  {
    |slots| == |names| && forall k :: 0 <= k < |slots| && slots[k].Some? ==> slots[k].value.name == names[k]
  }

  predicate Distinct(names: seq<string>)
  {
    forall i, j :: 0 <= i < j < |names| ==> names[i] != names[j]
  }

  /** Dropping the first slot keeps the remaining slots named. */
  lemma SlotsNamedTail(slots: seq<Option<Field>>, names: seq<string>)
    requires SlotsNamed(slots, names) && |slots| > 0
    ensures SlotsNamed(slots[1..], names[1..])
  {
    forall i | 0 <= i < |slots| - 1 && slots[1..][i].Some?
      ensures slots[1..][i].value.name == names[1..][i]
    {
      assert slots[1..][i] == slots[i + 1];
    }
  }

  /** Looking up in a list that starts with `f`. */
  lemma LookupCons(f: Field, rest: seq<Field>, name: string)
    ensures Lookup([f] + rest, name) == if f.name == name then Some(f.value) else Lookup(rest, name)
  {
    assert ([f] + rest)[1..] == rest;
  }

  /** One step of `Present`: a filled first slot leads, an empty one is dropped. */
  lemma PresentStep(slots: seq<Option<Field>>)
    requires |slots| > 0
    ensures slots[0].Some? ==> Present(slots) == [slots[0].value] + Present(slots[1..])
    ensures slots[0].None? ==> Present(slots) == Present(slots[1..])
  {
  }

  /** Dropping the first name keeps the names distinct. */
  lemma DistinctTail(names: seq<string>)
    requires Distinct(names) && |names| > 0
    ensures Distinct(names[1..])
  {
    assert forall i :: 0 <= i < |names| - 1 ==> names[1..][i] == names[i + 1];
  }

  /** The first slot's name finds the first slot. */
  lemma LookupFirst(slots: seq<Option<Field>>, names: seq<string>)
    requires SlotsNamed(slots, names) && Distinct(names) && 0 < |slots|
    ensures Lookup(Present(slots), names[0]) == if slots[0].Some? then Some(slots[0].value.value) else None
  {
    PresentStep(slots);
    if slots[0].Some? {
      LookupCons(slots[0].value, Present(slots[1..]), names[0]);
    } else {
      SlotsNamedTail(slots, names);
      assert forall i :: 0 <= i < |names| - 1 ==> names[1..][i] == names[i + 1];
      LookupAbsent(slots[1..], names[1..], names[0]);
    }
  }

  /** With distinct slot names, looking a name up finds exactly its slot. */
  lemma {:induction false} LookupPresent(slots: seq<Option<Field>>, names: seq<string>, k: nat)
    requires SlotsNamed(slots, names) && Distinct(names) && k < |slots|
    ensures Lookup(Present(slots), names[k]) == if slots[k].Some? then Some(slots[k].value.value) else None
    decreases k
  {
    if k == 0 {
      LookupFirst(slots, names);
    } else {
      SlotsNamedTail(slots, names);
      DistinctTail(names);
      LookupPresent(slots[1..], names[1..], k - 1);
      assert names[1..][k - 1] == names[k] && slots[1..][k - 1] == slots[k];
      PresentStep(slots);
      if slots[0].Some? {
        assert names[0] != names[k];
        LookupCons(slots[0].value, Present(slots[1..]), names[k]);
      }
    }
  }

  /** A name no slot carries is not found. */
  lemma {:induction false} LookupAbsent(slots: seq<Option<Field>>, names: seq<string>, name: string)
    requires SlotsNamed(slots, names)
    requires forall i :: 0 <= i < |names| ==> names[i] != name
    ensures Lookup(Present(slots), name) == None
    decreases |slots|
  {
    if |slots| > 0 {
      SlotsNamedTail(slots, names);
      assert forall i :: 0 <= i < |names| - 1 ==> names[1..][i] == names[i + 1];
      LookupAbsent(slots[1..], names[1..], name);
      PresentStep(slots);
      if slots[0].Some? {
        LookupCons(slots[0].value, Present(slots[1..]), name);
      }
    }
  }

  /** `x` is one of `names`. */
  predicate NameOf(x: string, names: seq<string>)
  {
    exists b :: 0 <= b < |names| && x == names[b]
  }

  /** `x` is named in `names` strictly before `y`. */
  predicate NamedBefore(x: string, y: string, names: seq<string>)
  {
    exists a, b :: 0 <= a < b < |names| && x == names[a] && y == names[b]
  }

  /** Membership survives putting a name in front. */
  lemma NameOfShift(x: string, names: seq<string>)
    requires |names| > 0 && NameOf(x, names[1..])
    ensures NameOf(x, names)
  {
    var b :| 0 <= b < |names| - 1 && x == names[1..][b];
    assert x == names[b + 1];
  }

  /** Order survives putting a name in front. */
  lemma NamedBeforeShift(x: string, y: string, names: seq<string>)
    requires |names| > 0 && NamedBefore(x, y, names[1..])
    ensures NamedBefore(x, y, names)
  {
    var a, b :| 0 <= a < b < |names| - 1 && x == names[1..][a] && y == names[1..][b];
    assert x == names[a + 1] && y == names[b + 1];
  }

  /** The first name comes before every later one. */
  lemma NamedBeforeFirst(y: string, names: seq<string>)
    requires |names| > 0 && NameOf(y, names[1..])
    ensures NamedBefore(names[0], y, names)
  {
    var b :| 0 <= b < |names| - 1 && y == names[1..][b];
    assert y == names[b + 1];
  }

  /** The filled slots appear in slot order, so the field names keep the order
      of `names`. */
  lemma {:induction false} PresentNamesInOrder(slots: seq<Option<Field>>, names: seq<string>, i: nat, j: nat)
    requires SlotsNamed(slots, names) && i < j < |Present(slots)|
    ensures NamedBefore(Present(slots)[i].name, Present(slots)[j].name, names)
    decreases |slots|
  {
    SlotsNamedTail(slots, names);
    PresentStep(slots);
    var rest := Present(slots[1..]);
    if slots[0].Some? {
      assert Present(slots)[j] == rest[j - 1];
      if i == 0 {
        FieldHasLaterName(slots[1..], names[1..], j - 1);
        NamedBeforeFirst(rest[j - 1].name, names);
      } else {
        assert Present(slots)[i] == rest[i - 1];
        PresentNamesInOrder(slots[1..], names[1..], i - 1, j - 1);
        NamedBeforeShift(rest[i - 1].name, rest[j - 1].name, names);
      }
    } else {
      PresentNamesInOrder(slots[1..], names[1..], i, j);
      NamedBeforeShift(rest[i].name, rest[j].name, names);
    }
  }

  /** Every present field carries the name of its slot. */
  lemma {:induction false} FieldHasLaterName(slots: seq<Option<Field>>, names: seq<string>, i: nat)
    requires SlotsNamed(slots, names) && i < |Present(slots)|
    ensures NameOf(Present(slots)[i].name, names)
    decreases |slots|
  {
    SlotsNamedTail(slots, names);
    PresentStep(slots);
    var rest := Present(slots[1..]);
    if slots[0].Some? && i == 0 {
      assert Present(slots)[0].name == names[0];
    } else {
      var i' := if slots[0].Some? then i - 1 else i;
      assert Present(slots)[i] == rest[i'];
      FieldHasLaterName(slots[1..], names[1..], i');
      NameOfShift(rest[i'].name, names);
    }
  }

  // ---------------------------------------------------------------------------
  // The evidence embed

  /** The bot's tag text: `[AFF] ` and `[NEG] ` markers, chat-style hashtags. */
  function EmbedTags(sub: Submission): string
  {
    ChatTagBlock("[AFF] ", "[NEG] ", sub)
  }

  /** The tag text is empty exactly when neither group renders. */
  lemma EmbedTagsEmpty(sub: Submission)
    ensures EmbedTags(sub) == "" <==> !Renders(sub.affTags) && !Renders(sub.negTags)
  {
    var a := ChatTagGroup("[AFF] ", sub.affTags);
    var b := ChatTagGroup("[NEG] ", sub.negTags);
    if Renders(sub.affTags) {
      assert |a| > 0;
    } else if Renders(sub.negTags) {
      assert |b| > 0;
    }
  }

  /** Whether the translation field is shown: non-empty and different from the
      original. */
  predicate TranslationShown(quote: string, translated: string)
  {
    translated != "" && translated != quote
  }

  function Slot(shown: bool, f: Field): Option<Field>
  {
    if shown then Some(f) else None
  }

  /** One slot per possible field, in the order the bot adds them. */
  function EmbedSlots(sub: Submission, translated: string): (slots: seq<Option<Field>>)
    ensures |slots| == |FieldNames|
  {
    var tags := EmbedTags(sub);
    [Slot(tags != "", Field(TagsName, tags, false)),
     Slot(sub.quote != "", Field(OriginalName, QuoteValue(sub.quote), false)),
     Slot(TranslationShown(sub.quote, translated), Field(TranslationName, QuoteValue(translated), false)),
     Some(Field(SourceName, sub.engSource, true)),
     Some(Field(UpdateName, sub.updateDate, true)),
     Slot(sub.sourceUrl != "", Field(UrlName, sub.sourceUrl, false)),
     Slot(sub.attachment != "", Field(AttachmentsName, sub.attachment, false)),
     Slot(sub.remark != "", Field(RemarksName, RemarkMarker + sub.remark, false))]
  }

  /** The embed `process_evidence_notification` builds for entry `n`. The title
      reads back as `n`, at most eight fields are present, and each present
      field's name is one of the known names. */
  function EvidenceEmbed(n: int, sub: Submission, translated: string): (e: Embed)
    ensures LeadingInt(e.title) == Some(n)
    ensures e.description == "**Submitter:** " + sub.submitter
    ensures |e.fields| <= |FieldNames|
  {
    var title := IntToString(n) + (". " + sub.title);
    LeadingIntOfIntToString(n, ". " + sub.title);
    Embed(title, "**Submitter:** " + sub.submitter, Green, Present(EmbedSlots(sub, translated)))
  }

  /** Each slot of the embed carries its own name. */
  lemma EmbedSlotsNamed(sub: Submission, translated: string)
    ensures SlotsNamed(EmbedSlots(sub, translated), FieldNames)
  {
    var slots := EmbedSlots(sub, translated);
    forall k | 0 <= k < |slots| && slots[k].Some?
      ensures slots[k].value.name == FieldNames[k]
    {
      if k == 0 { assert slots[0].value.name == TagsName; }
      else if k == 1 { assert slots[1].value.name == OriginalName; }
      else if k == 2 { assert slots[2].value.name == TranslationName; }
      else if k == 3 { assert slots[3].value.name == SourceName; }
      else if k == 4 { assert slots[4].value.name == UpdateName; }
      else if k == 5 { assert slots[5].value.name == UrlName; }
      else if k == 6 { assert slots[6].value.name == AttachmentsName; }
      else { assert slots[7].value.name == RemarksName; }
    }
  }

  lemma FieldNamesDistinct()
    ensures Distinct(FieldNames)
  {
  }

  /** The field rules: Tags only for a non-empty tag text (some group renders);
      the original quote only when non-empty, clipped; the translation only when
      non-empty and different from the original, clipped; Source and Update
      Date always; URL, Attachments and Remarks only when non-empty, the remark
      behind its marker. */
  lemma EmbedFieldRules(n: int, sub: Submission, translated: string)
    ensures var fs := EvidenceEmbed(n, sub, translated).fields;
      && (Lookup(fs, TagsName).Some? <==> Renders(sub.affTags) || Renders(sub.negTags))
      && (Lookup(fs, TagsName).Some? ==> Lookup(fs, TagsName).value == EmbedTags(sub))
      && Lookup(fs, OriginalName) == (if sub.quote != "" then Some(QuoteValue(sub.quote)) else None)
      && Lookup(fs, TranslationName)
         == (if TranslationShown(sub.quote, translated) then Some(QuoteValue(translated)) else None)
      && Lookup(fs, SourceName) == Some(sub.engSource)
      && Lookup(fs, UpdateName) == Some(sub.updateDate)
      && Lookup(fs, UrlName) == (if sub.sourceUrl != "" then Some(sub.sourceUrl) else None)
      && Lookup(fs, AttachmentsName) == (if sub.attachment != "" then Some(sub.attachment) else None)
      && Lookup(fs, RemarksName) == (if sub.remark != "" then Some(RemarkMarker + sub.remark) else None)
  {
    var slots := EmbedSlots(sub, translated);
    EmbedSlotsNamed(sub, translated);
    FieldNamesDistinct();
    EmbedTagsEmpty(sub);
    LookupPresent(slots, FieldNames, 0);
    LookupPresent(slots, FieldNames, 1);
    LookupPresent(slots, FieldNames, 2);
    LookupPresent(slots, FieldNames, 3);
    LookupPresent(slots, FieldNames, 4);
    LookupPresent(slots, FieldNames, 5);
    LookupPresent(slots, FieldNames, 6);
    LookupPresent(slots, FieldNames, 7);
  }

  /** Field names never repeat and always follow the order Tags, Original Quote,
      English Translation, Source, Update Date, URL, Attachments, Remarks. */
  lemma EmbedFieldOrder(n: int, sub: Submission, translated: string, i: nat, j: nat)
    requires i < j < |EvidenceEmbed(n, sub, translated).fields|
    ensures var fs := EvidenceEmbed(n, sub, translated).fields;
            NamedBefore(fs[i].name, fs[j].name, FieldNames)
  {
    EmbedSlotsNamed(sub, translated);
    PresentNamesInOrder(EmbedSlots(sub, translated), FieldNames, i, j);
  }
}

=== FILE: formatting.dfy ===
/** The entry formatter: a submission and its entry number become the document
    entry and the webhook notification text. Translated text is passed in. */
module Formatting {
  import opened Wrappers
  import opened Text
  import opened Submissions

  // ---------------------------------------------------------------------------
  // Tag groups

  /** A tag group is shown only when it has a first tag and that tag is non-empty
      (so a field starting with `", "` hides the whole group). */
  predicate Renders(tags: seq<string>)
  {
    |tags| > 0 && tags[0] != ""
  }

  /** Document style: ` #tag` for each tag. */
  function DocHashtags(tags: seq<string>): string
    decreases |tags|
  {
    if |tags| == 0 then "" else " #" + tags[0] + DocHashtags(tags[1..])
  }

  /** Chat style: `#tag ` for each tag. */
  function ChatHashtags(tags: seq<string>): string
    decreases |tags|
  {
    if |tags| == 0 then "" else "#" + tags[0] + " " + ChatHashtags(tags[1..])
  }

  /** One group of the document tag line: ` <marker>` then the hashtags. */
  function DocTagGroup(marker: string, tags: seq<string>): (r: string)
    ensures r == "" <==> !Renders(tags)
  {
    if Renders(tags) then " " + marker + DocHashtags(tags) else ""
  }

  /** One group of a chat tag block: `<marker>` then the hashtags. */
  function ChatTagGroup(marker: string, tags: seq<string>): (r: string)
    ensures r == "" <==> !Renders(tags)
  {
    if Renders(tags) then marker + ChatHashtags(tags) else ""
  }

  /** The chat tag block: the AFF group, a line break only when both groups are
      shown, then the NEG group. The webhook uses the markers `[AFF]`/`[NEG]`,
      the bot embed `[AFF] `/`[NEG] `. */
  function ChatTagBlock(affMarker: string, negMarker: string, sub: Submission): string
  {
    ChatTagGroup(affMarker, sub.affTags)
    + (if Renders(sub.affTags) && Renders(sub.negTags) then "\n" else "")
    + ChatTagGroup(negMarker, sub.negTags)
  }

  /** The hashtags of both styles are the tags joined with ` #`. */
  lemma {:induction false} HashtagsAsJoin(tags: seq<string>)
    requires |tags| >= 1
    ensures DocHashtags(tags) == " #" + Join(tags, " #")
    ensures ChatHashtags(tags) == "#" + Join(tags, " #") + " "
    decreases |tags|
  {
    if |tags| > 1 {
      HashtagsAsJoin(tags[1..]);
    }
  }

  /** Whether the group read from a raw tag field is shown, as a property of the
      field itself: it is non-empty and does not start with `", "`. */
  predicate FieldShown(raw: string)
  {
    raw != "" && !SepAt(raw, 0)
  }

  lemma RendersFromField(raw: string)
    ensures Renders(ParseTags(raw)) <==> FieldShown(raw)
  {
    if raw != "" {
      assert ParseTags(raw) == Split(raw);
      if |raw| >= 2 && !SepAt(raw, 0) {
        var rest := Split(raw[1..]);
        assert Split(raw)[0] == [raw[0]] + rest[0];
      }
    }
  }

  /** A chat tag group written straight from the raw form field: the marker, `#`,
      the field with every `", "` turned into ` #`, and a trailing space. */
  function ChatGroupOfField(marker: string, raw: string): string
  {
    if FieldShown(raw) then marker + "#" + ReplaceSep(raw, " #") + " " else ""
  }

  /** A document tag group written straight from the raw form field. */
  function DocGroupOfField(marker: string, raw: string): string
  {
    if FieldShown(raw) then " " + marker + " #" + ReplaceSep(raw, " #") else ""
  }

  /** Rendering the extracted tags is rewriting the raw field's separators. */
  lemma TagGroupsFromField(marker: string, raw: string)
    ensures ChatTagGroup(marker, ParseTags(raw)) == ChatGroupOfField(marker, raw)
    ensures DocTagGroup(marker, ParseTags(raw)) == DocGroupOfField(marker, raw)
  {
    RendersFromField(raw);
    if FieldShown(raw) {
      HashtagsAsJoin(Split(raw));
      JoinSplit(raw, " #");
    }
  }

  // ---------------------------------------------------------------------------
  // Title line

  /** What follows the number in a title line: `. <title> (<submitter>)`. */
  function TitleRest(title: string, submitter: string): (r: string)
    ensures |r| > 0 && r[0] == '.'
  {
    ". " + title + " (" + submitter + ")"
  }

  /** `<n>. <title> (<submitter>)`: the line reads back as its number, and
      right after the number come the title and the submitter. */
  function TitleLine(n: int, title: string, submitter: string): (r: string)
    ensures LeadingInt(r) == Some(n)
    ensures |IntToString(n)| <= |r| && r[|IntToString(n)|..] == ". " + title + " (" + submitter + ")"
  {
    LeadingIntOfIntToString(n, TitleRest(title, submitter));
    IntToString(n) + TitleRest(title, submitter)
  }

  /** The entry number is the integer the title line starts with, whatever follows. */
  lemma TitleLineNumber(n: int, title: string, submitter: string, rest: string)
    ensures LeadingInt(TitleLine(n, title, submitter) + rest) == Some(n)
  {
    var tail := TitleRest(title, submitter) + rest;
    assert TitleLine(n, title, submitter) + rest == IntToString(n) + tail;
    LeadingIntOfIntToString(n, tail);
  }

  // ---------------------------------------------------------------------------
  // Document entry

  /** The content prepared for the document: title line, tag line, remark,
      table block and attachment. */
  datatype DocumentEntry = DocumentEntry(
    title: string,
    tags: string,
    remark: string,
    table: string,
    attachment: string)

  /** `#<submitter>` followed by the AFF and NEG groups: nothing follows the
      submitter's hashtag exactly when neither group is shown, and a shown AFF
      group comes first. */
  function DocTagLine(sub: Submission): (r: string)
    ensures "#" + sub.submitter <= r
    ensures |r| == |"#" + sub.submitter| <==> !Renders(sub.affTags) && !Renders(sub.negTags)
    ensures Renders(sub.affTags) ==> "#" + sub.submitter + " [AFF]" <= r
    ensures !Renders(sub.affTags) && Renders(sub.negTags) ==> "#" + sub.submitter + " [NEG]" <= r
  {
    "#" + sub.submitter + (DocTagGroup("[AFF]", sub.affTags) + DocTagGroup("[NEG]", sub.negTags))
  }

  const DocNumberLabel: string := "[資料番号:"

  /** What follows the number in the table head: `] <update_date>: <eng_source>`,
      a line break and the URL. */
  function DocHeadRest(sub: Submission): (r: string)
    ensures |r| > 0 && r[0] == ']'
  {
    "] " + sub.updateDate + ": " + sub.engSource + "\n" + sub.sourceUrl
  }

  /** The head of the table block: entry number, update date, source label, URL. */
  function DocTableHead(n: int, sub: Submission): string
  {
    DocNumberLabel + (IntToString(n) + DocHeadRest(sub))
  }

  /** The label in front of the original quote. */
  const OriginalHeader: string := "\n\n【Original (Japanese)】\n"

  /** The label in front of the translated quote. */
  const TranslationHeader: string := "\n\n【English Translation】\n"

  /** The table block: the head, the labelled original quote, then the
      labelled translation, and nothing else. The entry number is read back
      after `[資料番号:`. */
  function DocTable(n: int, sub: Submission, translated: string): (t: string)
    ensures |DocNumberLabel| <= |t| && LeadingInt(t[|DocNumberLabel|..]) == Some(n)
    ensures DocTableHead(n, sub) <= t
    ensures DocTableHead(n, sub) + OriginalHeader + sub.quote <= t
    ensures EndsWith(t, TranslationHeader + translated)
    ensures EndsWith(t, translated)
    ensures |t| == |DocTableHead(n, sub)| + |OriginalHeader| + |sub.quote| + |TranslationHeader + translated|
  {
    var after := DocHeadRest(sub) + (OriginalHeader + (sub.quote + (TranslationHeader + translated)));
    LabelledNumber(DocNumberLabel, n, after);
    NestedLayout(DocNumberLabel, IntToString(n), DocHeadRest(sub), OriginalHeader, sub.quote,
                 TranslationHeader, translated);
    DocNumberLabel + (IntToString(n) + after)
  }

  /** `add_to_docs` (content only): the title line, the tag line and the table
      block of entry `n`; the entry number can be read back from the title and
      from the table head, and remark and attachment are passed through. */
  function FormatDocumentEntry(n: int, sub: Submission, translated: string): (e: DocumentEntry)
    ensures e.title == TitleLine(n, sub.title, sub.submitter)
    ensures e.tags == DocTagLine(sub)
    ensures e.table == DocTable(n, sub, translated)
    ensures LeadingInt(e.title) == Some(n)
    ensures |DocNumberLabel| <= |e.table| && LeadingInt(e.table[|DocNumberLabel|..]) == Some(n)
    ensures "#" + sub.submitter <= e.tags
    ensures DocTableHead(n, sub) <= e.table
    ensures EndsWith(e.table, translated)
    ensures e.remark == sub.remark && e.attachment == sub.attachment
  {
    DocumentEntry(TitleLine(n, sub.title, sub.submitter), DocTagLine(sub), sub.remark,
                  DocTable(n, sub, translated), sub.attachment)
  }

  /** The document tag line computed from the raw row: the submitter's hashtag,
      then each shown group with the field's separators rewritten to ` #`. */
  lemma DocTagLineFromRow(row: Row)
    requires |row| >= FieldCount
    ensures DocTagLine(Extract(row).value)
         == "#" + row[1] + (DocGroupOfField("[AFF]", row[3]) + DocGroupOfField("[NEG]", row[4]))
  {
    TagGroupsFromField("[AFF]", row[3]);
    TagGroupsFromField("[NEG]", row[4]);
  }

  // ---------------------------------------------------------------------------
  // Webhook notification

  const AttachmentHeader: string := "\n添付ファイル：\n"
  const NoAttachment: string := "なし"

  /** The attachment line is always rendered; an empty attachment shows `なし`. */
  function AttachmentLine(attachment: string): string
  {
    AttachmentHeader + (if attachment == "" then NoAttachment else attachment)
  }

  /** The remark line, present only for a non-empty remark. */
  function RemarkLine(remark: string): string
  {
    if remark == "" then "" else "\n※" + remark
  }

  /** Submitter, update date and URL. */
  function Footer(sub: Submission): string
  {
    "【投稿者】" + sub.submitter + "\n" + "【引用元】" + sub.updateDate + "\n" + sub.sourceUrl
  }

  /** A quote between triple backticks. */
  function Fenced(text: string): string
  {
    "```" + text + "```"
  }

  /** What separates the fenced original from the fenced translation. */
  const TranslationLabel: string := "\n\n**English Translation:**\n"

  /** The webhook `content`: the title line, a blank line, the chat tag block, a
      blank line and the fenced original quote; then the translation label; then
      the fenced translation, the optional remark line, the attachment line that
      is always present, a blank line and the footer. The entry number is read
      back from its start. */
  function NotificationContent(n: int, sub: Submission, translated: string): (r: string)
    ensures LeadingInt(r) == Some(n)
    ensures TitleLine(n, sub.title, sub.submitter) + "\n" <= r
    ensures var head := TitleLine(n, sub.title, sub.submitter)
                        + ("\n\n" + ChatTagBlock("[AFF]", "[NEG]", sub) + "\n\n" + Fenced(sub.quote));
            head + TranslationLabel <= r
    ensures var tail := Fenced(translated)
                        + (RemarkLine(sub.remark) + AttachmentLine(sub.attachment) + "\n\n" + Footer(sub));
            EndsWith(r, tail)
    ensures |r| == |TitleLine(n, sub.title, sub.submitter)|
                   + |"\n\n" + ChatTagBlock("[AFF]", "[NEG]", sub) + "\n\n" + Fenced(sub.quote)|
                   + |TranslationLabel|
                   + |Fenced(translated) + (RemarkLine(sub.remark) + AttachmentLine(sub.attachment) + "\n\n" + Footer(sub))|
  {
    var title := TitleLine(n, sub.title, sub.submitter);
    var lead := "\n\n" + ChatTagBlock("[AFF]", "[NEG]", sub) + "\n\n" + Fenced(sub.quote);
    var tail := Fenced(translated)
                + (RemarkLine(sub.remark) + AttachmentLine(sub.attachment) + "\n\n" + Footer(sub));
    NotificationLayout(title, lead, tail);
    TitleLineNumber(n, sub.title, sub.submitter, lead + (TranslationLabel + tail));
    (title + lead) + (TranslationLabel + tail)
  }

  /** The content is the title, the part up to the fenced original (which starts
      with a line break), the label and the part from the fenced translation on:
      each can be read back at its place. */
  lemma NotificationLayout(title: string, lead: string, tail: string)
    requires "\n" <= lead
    ensures var s := (title + lead) + (TranslationLabel + tail);
            && s == title + (lead + (TranslationLabel + tail))
            && title + "\n" <= s
            && (title + lead) + TranslationLabel <= s
            && EndsWith(s, tail)
            && |s| == |title| + |lead| + |TranslationLabel| + |tail|
  {
    var s := (title + lead) + (TranslationLabel + tail);
    assert s == title + (lead + (TranslationLabel + tail));
    assert s[|title|] == lead[0];
    Sandwich(title + lead, TranslationLabel, tail);
    assert s[..|title + lead| + |TranslationLabel|] == (title + lead) + TranslationLabel;
  }

  /** The chat tag block computed from the raw row. */
  lemma ChatTagBlockFromRow(affMarker: string, negMarker: string, row: Row)
    requires |row| >= FieldCount
    ensures ChatTagBlock(affMarker, negMarker, Extract(row).value)
         == ChatGroupOfField(affMarker, row[3])
            + (if FieldShown(row[3]) && FieldShown(row[4]) then "\n" else "")
            + ChatGroupOfField(negMarker, row[4])
  {
    TagGroupsFromField(affMarker, row[3]);
    TagGroupsFromField(negMarker, row[4]);
    RendersFromField(row[3]);
    RendersFromField(row[4]);
  }
}

=== FILE: latest.dfy ===
/** The "latest submissions" window shared by the web service and the chat bot:
    the last `limit` rows of the sheet, numbered by their sheet position. */
module Latest {
  import opened Wrappers
  import opened Submissions

  /** A submission with the 1-based sheet row it was read from. */
  datatype Numbered = Numbered(rowNumber: nat, submission: Submission)

  /** 0-based index where `all_rows[-limit:] if len(all_rows) > limit else all_rows[1:]`
      starts, for a sheet of `count` rows, with Python's slice semantics (a limit of
      zero takes every row, a negative limit drops rows from the front). For a
      positive limit the window is the last `min(limit, count - 1)` rows and never
      includes the header. */
  function WindowStart(count: nat, limit: int): (start: nat)
    requires count >= 2
    ensures start <= count
    ensures limit >= 1 ==> start >= 1 && count - start == if limit < count - 1 then limit else count - 1
    ensures limit == 0 ==> start == 0
    ensures limit < 0 ==> start == if -limit < count then -limit else count
  {
    if count > limit then
      if limit > 0 then count - limit
      else if limit == 0 then 0
      else if -limit < count then -limit else count
    else 1
  }

  /** Every row number lies in `(lo, hi]`. */
  predicate Within(r: seq<Numbered>, lo: int, hi: int)
  {
    forall k :: 0 <= k < |r| ==> lo < r[k].rowNumber <= hi
  }

  /** Every numbered submission is the extraction of the sheet row it names. */
  predicate FromRows(rows: seq<Row>, r: seq<Numbered>)
  {
    forall k :: 0 <= k < |r| ==>
      1 <= r[k].rowNumber <= |rows| && ExtractsTo(rows[r[k].rowNumber - 1], r[k].submission)
  }

  /** Row numbers strictly increase. */
  predicate Ascending(r: seq<Numbered>)
  {
    forall k, l :: 0 <= k < l < |r| ==> r[k].rowNumber < r[l].rowNumber
  }

  /** Extraction of rows `i..` (0-based), each numbered by its sheet position;
      rows that fail extraction are dropped. The row numbers increase and each
      numbered submission is the extraction of its row. */
  function NumberFrom(rows: seq<Row>, i: nat): (r: seq<Numbered>)
    requires i <= |rows|
    ensures Within(r, i, |rows|) && FromRows(rows, r) && Ascending(r)
    decreases |rows| - i
  {
    if i == |rows| then []
    else
      var rest := NumberFrom(rows, i + 1);
      match Extract(rows[i])
      case Success(s) =>
        NumberedCons(rows, i, s, rest);
        [Numbered(i + 1, s)] + rest
      case Failure(_) => rest
  }

  /** Row `i` numbered in front of the numbering of the rows after it. */
  lemma NumberedCons(rows: seq<Row>, i: nat, s: Submission, rest: seq<Numbered>)
    requires i < |rows| && ExtractsTo(rows[i], s)
    requires Within(rest, i + 1, |rows|) && FromRows(rows, rest) && Ascending(rest)
    ensures var r := [Numbered(i + 1, s)] + rest;
            Within(r, i, |rows|) && FromRows(rows, r) && Ascending(r)
  {
    ConsOrder(Numbered(i + 1, s), rest, i, |rows|);
    ConsFromRows(rows, Numbered(i + 1, s), rest);
  }

  lemma ConsOrder(x: Numbered, rest: seq<Numbered>, lo: int, hi: int)
    requires lo < x.rowNumber <= hi && Within(rest, x.rowNumber, hi) && Ascending(rest)
    ensures Within([x] + rest, lo, hi) && Ascending([x] + rest)
  {
    var r := [x] + rest;
    assert forall k :: 0 < k < |r| ==> r[k] == rest[k - 1];
  }

  lemma ConsFromRows(rows: seq<Row>, x: Numbered, rest: seq<Numbered>)
    requires 1 <= x.rowNumber <= |rows| && ExtractsTo(rows[x.rowNumber - 1], x.submission)
    requires FromRows(rows, rest)
    ensures FromRows(rows, [x] + rest)
  {
    var r := [x] + rest;
    forall k | 0 <= k < |r|
      ensures 1 <= r[k].rowNumber <= |rows| && ExtractsTo(rows[r[k].rowNumber - 1], r[k].submission)
    {
      if k > 0 {
        assert r[k] == rest[k - 1];
      }
    }
  }

  /** `row` extracts to `s`. */
  predicate ExtractsTo(row: Row, s: Submission)
  {
    Extract(row) == Success(s)
  }

  /** The sheet rows that were numbered, in order. */
  function RowNumbers(r: seq<Numbered>): seq<nat>
  {
    seq(|r|, k requires 0 <= k < |r| => r[k].rowNumber)
  }

  lemma RowNumbersCons(x: Numbered, rest: seq<Numbered>)
    ensures RowNumbers([x] + rest) == [x.rowNumber] + RowNumbers(rest)
  {
  }

  /** Unfolds `NumberFrom` once. */
  lemma NumberFromStep(rows: seq<Row>, i: nat)
    requires i < |rows|
    ensures |rows[i]| >= FieldCount ==>
              NumberFrom(rows, i) == [Numbered(i + 1, Extract(rows[i]).value)] + NumberFrom(rows, i + 1)
    ensures |rows[i]| < FieldCount ==> NumberFrom(rows, i) == NumberFrom(rows, i + 1)
  {
  }

  /** No extractable row of the range is lost. */
  lemma {:induction false} NumberFromComplete(rows: seq<Row>, i: nat, j: nat)
    requires i <= j < |rows| && |rows[j]| >= FieldCount
    ensures j + 1 in RowNumbers(NumberFrom(rows, i))
    decreases |rows| - i
  {
    NumberFromStep(rows, i);
    if i == j {
      RowNumbersCons(Numbered(i + 1, Extract(rows[i]).value), NumberFrom(rows, i + 1));
    } else {
      NumberFromComplete(rows, i + 1, j);
      if |rows[i]| >= FieldCount {
        RowNumbersCons(Numbered(i + 1, Extract(rows[i]).value), NumberFrom(rows, i + 1));
      }
    }
  }

  /** When every row of the range extracts, every row appears. */
  lemma {:induction false} NumberFromAll(rows: seq<Row>, i: nat)
    requires i <= |rows|
    requires forall j :: i <= j < |rows| ==> |rows[j]| >= FieldCount
    ensures |NumberFrom(rows, i)| == |rows| - i
    decreases |rows| - i
  {
    if i < |rows| {
      assert |rows[i]| >= FieldCount;
      NumberFromStep(rows, i);
      NumberFromAll(rows, i + 1);
      assert |NumberFrom(rows, i)| == 1 + |NumberFrom(rows, i + 1)|;
    }
  }

  /** `get_latest_submissions` on the fetched rows: nothing for a header-only sheet;
      otherwise the extractable rows of the window, ascending, each numbered by
      its sheet position. A positive limit never reaches the header row and
      keeps row numbers above `count - limit`. */
  function GetLatestSubmissions(rows: seq<Row>, limit: int): (r: seq<Numbered>)
    ensures |rows| <= 1 ==> r == []
    ensures FromRows(rows, r) && Ascending(r)
    ensures limit >= 1 ==> Within(r, if |rows| - limit < 1 then 1 else |rows| - limit, |rows|)
  {
    if |rows| <= 1 then [] else NumberFrom(rows, WindowStart(|rows|, limit))
  }

  /** Every extractable row of the window is returned. */
  lemma LatestComplete(rows: seq<Row>, limit: int, j: nat)
    requires |rows| >= 2
    requires WindowStart(|rows|, limit) <= j < |rows| && |rows[j]| >= FieldCount
    ensures j + 1 in RowNumbers(GetLatestSubmissions(rows, limit))
  {
    NumberFromComplete(rows, WindowStart(|rows|, limit), j);
  }
}

=== FILE: monitor.dfy ===
/** The polling pipeline of `process_submission.py`: one cycle reads the whole
    sheet, processes the rows appended since the last processed row in ascending
    order, then advances the offset. */
module Monitor {
  import opened Wrappers
  import opened Text
  import opened Submissions
  import opened Translation
  import opened Formatting
  import opened Records
  import opened Delivery

  /** The external services one row needs: the translation provider and the
      webhook POST. */
  datatype Services = Services(provider: Provider, post: Transport)

  /** What `process_submission` did with one row. */
  datatype RowOutcome =
    | Skipped(failure: ExtractionFailure)
    | Processed(document: DocumentEntry, notification: string, notified: bool,
                record: StructuredRecord)

  /** `process_submission(row_data, row_number)`: extraction, then the document
      entry and the notification numbered `row_number - 1`, then the structured
      record `entry_<row_number>`. Every translation goes through the provider. */
  function ProcessRow(row: Row, rowNumber: int, svc: Services, now: string): RowOutcome
  {
    match Extract(row)
    case Failure(e) => Skipped(e)
    case Success(sub) =>
      var tr := Some(svc.provider);
      var content := NotificationContent(rowNumber - 1, sub, Translate(sub.quote, tr));
      Processed(FormatDocumentEntry(rowNumber - 1, sub, Translate(sub.quote, tr)),
                content, Accepted(svc.post(content)), BuildRecord(sub, rowNumber, tr, now))
  }

  /** A row that fails extraction yields nothing else; otherwise the document
      entry and the notification both carry entry number `row_number - 1`, the
      record id reads back as `row_number`, the record keeps the whole extracted
      submission, and the notification counts as sent exactly when the webhook
      answered 204 to that very content. The document entry, the notification
      and the record are the formatted entry, the notification text and the
      record of the extracted submission, with every translation by the
      provider and the record carrying the clock reading. */
  lemma ProcessRowOutcome(row: Row, rowNumber: int, svc: Services, now: string)
    ensures var o := ProcessRow(row, rowNumber, svc, now);
            && (o.Skipped? <==> |row| < FieldCount)
            && (o.Skipped? ==> o.failure == InsufficientColumns(|row|))
            && (o.Processed? ==>
                  && LeadingInt(o.document.title) == Some(rowNumber - 1)
                  && LeadingInt(o.notification) == Some(rowNumber - 1)
                  && IdNumber(o.record.id) == Some(rowNumber)
                  && SubmissionOf(o.record) == Extract(row).value
                  && (o.notified <==> Accepted(svc.post(o.notification)))
                  && var sub := Extract(row).value;
                     var translated := Translate(sub.quote, Some(svc.provider));
                     && o.document == FormatDocumentEntry(rowNumber - 1, sub, translated)
                     && o.notification == NotificationContent(rowNumber - 1, sub, translated)
                     && o.record == BuildRecord(sub, rowNumber, Some(svc.provider), now))
  {
  }

  /** The process-scoped state: the offset (`last_processed_row`) and the
      structured export accumulated so far. */
  datatype MonitorState = MonitorState(lastProcessedRow: nat, records: seq<StructuredRecord>)

  /** One processed row, with its 1-based sheet position. */
  datatype RowReport = RowReport(rowNumber: nat, outcome: RowOutcome)

  datatype CycleResult = CycleResult(state: MonitorState, reports: seq<RowReport>)

  /** The clock readings of one cycle: `process_submission` reads the clock once
      per record, so the row with each number has a reading of its own. */
  type Clock = int -> string

  /** The input of one cycle: the fetched sheet (`None` when fetching raised) and
      the clock readings used for `processed_at`. The cycle logic does not look
      at the readings, so it is stated for readings of any type `C`; the
      pipeline uses a `Clock`. */
  datatype Poll<C> = Poll(fetched: Option<seq<Row>>, clock: C)

  function Max(a: int, b: int): int
  {
    if a >= b then a else b
  }

  /** What the loop does with one sheet row: `process_submission` bound to the
      cycle's services, with the row's own clock reading. */
  type RowHandler = (Row, int) -> RowOutcome

  function Handler(svc: Services, clock: Clock): RowHandler
  {
    (row, rowNumber) => ProcessRow(row, rowNumber, svc, clock(rowNumber))
  }

  /** Rows `lo..hi` (1-based) handed to `handle` in ascending order. */
  function ProcessRange(rows: seq<Row>, lo: nat, hi: nat, handle: RowHandler): (r: seq<RowReport>)
    requires 1 <= lo <= hi + 1 && hi <= |rows|
    ensures |r| == hi + 1 - lo
    decreases hi
  {
    if hi < lo then []
    else ProcessRange(rows, lo, hi - 1, handle) + [RowReport(hi, handle(rows[hi - 1], hi))]
  }

  /** Report `k` is sheet row `lo + k` (1-based) handed to `handle`. */
  predicate HandledFrom(reports: seq<RowReport>, rows: seq<Row>, lo: int, handle: RowHandler)
  {
    forall k :: 0 <= k < |reports| ==>
      && 1 <= lo + k <= |rows|
      && reports[k].rowNumber == lo + k
      && reports[k].outcome == handle(rows[lo + k - 1], lo + k)
  }

  /** Each row of the range is handed to `handle` once, in ascending order. */
  lemma {:induction false} ProcessRangeReports(rows: seq<Row>, lo: nat, hi: nat, handle: RowHandler)
    requires 1 <= lo <= hi + 1 && hi <= |rows|
    ensures HandledFrom(ProcessRange(rows, lo, hi, handle), rows, lo, handle)
    decreases hi
  {
    if lo <= hi {
      var prefix := ProcessRange(rows, lo, hi - 1, handle);
      var r := ProcessRange(rows, lo, hi, handle);
      ProcessRangeReports(rows, lo, hi - 1, handle);
      assert r == prefix + [RowReport(hi, handle(rows[hi - 1], hi))];
      forall k | 0 <= k < |r|
        ensures 1 <= lo + k <= |rows| && r[k].rowNumber == lo + k
        ensures r[k].outcome == handle(rows[lo + k - 1], lo + k)
      {
        if k < |prefix| {
          assert r[k] == prefix[k];
        }
      }
    }
  }

  /** The records appended for a sequence of reports: one per processed row. */
  function RecordsOf(reports: seq<RowReport>): seq<StructuredRecord>
    decreases |reports|
  {
    if |reports| == 0 then []
    else
      var last := reports[|reports| - 1];
      RecordsOf(reports[..|reports| - 1]) + RecordOf(last.outcome)
  }

  /** The record one outcome contributes. */
  function RecordOf(o: RowOutcome): seq<StructuredRecord>
  {
    if o.Processed? then [o.record] else []
  }

  lemma RecordsOfSnoc(reports: seq<RowReport>, report: RowReport)
    ensures RecordsOf(reports + [report]) == RecordsOf(reports) + RecordOf(report.outcome)
  {
    assert (reports + [report])[..|reports|] == reports;
  }

  lemma {:induction false} RecordsOfAppend(a: seq<RowReport>, b: seq<RowReport>)
    ensures RecordsOf(a + b) == RecordsOf(a) + RecordsOf(b)
    decreases |b|
  {
    if |b| > 0 {
      var b' := b[..|b| - 1];
      assert (a + b)[..|a + b| - 1] == a + b';
      RecordsOfAppend(a, b');
    } else {
      assert a + b == a;
    }
  }

  /** A cycle has work to do: the sheet was fetched, holds more than the header,
      and has more rows than the offset. */
  predicate HasNewRows<C>(m: MonitorState, poll: Poll<C>)
  {
    poll.fetched.Some? && |poll.fetched.value| > 1 && |poll.fetched.value| > m.lastProcessedRow
  }

  /** `monitor_spreadsheet`, one cycle, with `handle` standing for
      `process_submission`. With new rows, the rows handed on are exactly
      `max(2, last + 1) .. current`, ascending, and the offset becomes `current`;
      otherwise (fetch failure, header-only sheet, no growth) nothing is
      processed and the state is unchanged. The export grows by exactly the
      records of the processed rows, and the offset never decreases. */
  function CycleWith<C>(m: MonitorState, poll: Poll<C>, handle: RowHandler): (c: CycleResult)
    ensures c.state.lastProcessedRow >= m.lastProcessedRow
    ensures c.state.records == m.records + RecordsOf(c.reports)
    ensures !HasNewRows(m, poll) ==> c == CycleResult(m, [])
    ensures HasNewRows(m, poll) ==>
              && c.state.lastProcessedRow == |poll.fetched.value|
              && |c.reports| == |poll.fetched.value| + 1 - Max(2, m.lastProcessedRow + 1)
  {
    if !HasNewRows(m, poll) then CycleResult(m, [])
    else
      var rows := poll.fetched.value;
      var reports := ProcessRange(rows, Max(2, m.lastProcessedRow + 1), |rows|, handle);
      CycleResult(MonitorState(|rows|, m.records + RecordsOf(reports)), reports)
  }

  /** A cycle either leaves the offset and processes nothing, or moves the
      offset forward to a row past the header and reports the rows in between,
      numbered consecutively from `max(2, last + 1)`. */
  lemma CycleShape<C>(m: MonitorState, poll: Poll<C>, handle: RowHandler)
    ensures var c := CycleWith(m, poll, handle);
            var last := c.state.lastProcessedRow;
            && (last == m.lastProcessedRow ==> c.reports == [])
            && (last != m.lastProcessedRow ==>
                  last > m.lastProcessedRow && last >= 2
                  && |c.reports| == last + 1 - Max(2, m.lastProcessedRow + 1))
            && NumberedFrom(c.reports, Max(2, m.lastProcessedRow + 1))
  {
    if HasNewRows(m, poll) {
      ProcessRangeReports(poll.fetched.value, Max(2, m.lastProcessedRow + 1), |poll.fetched.value|, handle);
    }
  }

  /** Report `k` of a cycle is sheet row `max(2, last + 1) + k`, handed to
      `handle` with that 1-based number. */
  lemma CycleReports<C>(m: MonitorState, poll: Poll<C>, handle: RowHandler)
    ensures HasNewRows(m, poll) ==>
              HandledFrom(CycleWith(m, poll, handle).reports, poll.fetched.value,
                          Max(2, m.lastProcessedRow + 1), handle)
  {
    if HasNewRows(m, poll) {
      ProcessRangeReports(poll.fetched.value, Max(2, m.lastProcessedRow + 1), |poll.fetched.value|, handle);
    }
  }

  /** The pipeline's cycle: rows go through `process_submission`, each with its
      own clock reading. */
  function Cycle(m: MonitorState, poll: Poll<Clock>, svc: Services): CycleResult
  {
    CycleWith(m, poll, Handler(svc, poll.clock))
  }

  /** Each report of a cycle is `process_submission` applied to its own sheet
      row, with that row's 1-based number, which is never the header's, and
      that row's clock reading. */
  lemma CycleOutcomes(m: MonitorState, poll: Poll<Clock>, svc: Services, k: nat)
    requires k < |Cycle(m, poll, svc).reports|
    ensures var c := Cycle(m, poll, svc);
            var n := c.reports[k].rowNumber;
            && 2 <= n <= |poll.fetched.value|
            && c.reports[k].outcome == ProcessRow(poll.fetched.value[n - 1], n, svc, poll.clock(n))
  {
    CycleReports(m, poll, Handler(svc, poll.clock));
  }

  /** One iteration of the loop keeps its invariant. */
  lemma NewRowsStep(rows: seq<Row>, lo: nat, i: nat, handle: RowHandler,
                    exported: seq<StructuredRecord>, reports: seq<RowReport>,
                    records: seq<StructuredRecord>)
    requires 1 <= lo <= i <= |rows|
    requires reports == ProcessRange(rows, lo, i - 1, handle)
    requires records == exported + RecordsOf(reports)
    ensures var report := RowReport(i, handle(rows[i - 1], i));
            && reports + [report] == ProcessRange(rows, lo, i, handle)
            && records + RecordOf(report.outcome) == exported + RecordsOf(reports + [report])
  {
    var report := RowReport(i, handle(rows[i - 1], i));
    RecordsOfSnoc(reports, report);
    assert records + RecordOf(report.outcome) == exported + (RecordsOf(reports) + RecordOf(report.outcome));
  }

  /** The loop of `monitor_spreadsheet`: rows `lo..hi` in ascending order, each
      processed row's record appended to the export as it is produced. */
  method ProcessNewRows(rows: seq<Row>, lo: nat, hi: nat, handle: RowHandler,
                        exported: seq<StructuredRecord>)
    returns (reports: seq<RowReport>, records: seq<StructuredRecord>)
    requires 1 <= lo <= hi + 1 && hi <= |rows|
    ensures reports == ProcessRange(rows, lo, hi, handle)
    ensures records == exported + RecordsOf(reports)
  {
    reports, records := [], exported;
    var rowIndex := lo;
    while rowIndex < hi + 1
      invariant lo <= rowIndex <= hi + 1
      invariant reports == ProcessRange(rows, lo, rowIndex - 1, handle)
      invariant records == exported + RecordsOf(reports)
    {
      var outcome := handle(rows[rowIndex - 1], rowIndex);
      NewRowsStep(rows, lo, rowIndex, handle, exported, reports, records);
      reports := reports + [RowReport(rowIndex, outcome)];
      records := records + RecordOf(outcome);
      rowIndex := rowIndex + 1;
    }
  }

  /** The cycle as the source writes it: the guards, the loop, then the offset
      update. It computes exactly `CycleWith`. */
  method MonitorSpreadsheet<C>(m: MonitorState, poll: Poll<C>, handle: RowHandler)
    returns (next: MonitorState, reports: seq<RowReport>)
    ensures CycleResult(next, reports) == CycleWith(m, poll, handle)
  {
    next, reports := m, [];
    if poll.fetched.None? {
      return;
    }
    var allRows := poll.fetched.value;
    if |allRows| <= 1 {
      return;
    }
    var current := |allRows|;
    if current > m.lastProcessedRow {
      var records;
      reports, records := ProcessNewRows(allRows, Max(2, m.lastProcessedRow + 1), current,
                                         handle, m.records);
      next := MonitorState(current, records);
    }
  }

  // ---------------------------------------------------------------------------
  // Successive cycles

  /** The row handler for each cycle's clock readings. */
  type HandlerFor<-C> = C -> RowHandler

  /** `run_monitoring_loop` over a finite sequence of polls. */
  function RunWith<C>(m: MonitorState, polls: seq<Poll<C>>, handlers: HandlerFor<C>): CycleResult
    decreases |polls|
  {
    if |polls| == 0 then CycleResult(m, [])
    else
      var c := CycleWith(m, polls[0], handlers(polls[0].clock));
      var rest := RunWith(c.state, polls[1..], handlers);
      CycleResult(rest.state, c.reports + rest.reports)
  }

  /** The pipeline's loop. */
  function Run(m: MonitorState, polls: seq<Poll<Clock>>, svc: Services): CycleResult
  {
    RunWith(m, polls, clock => Handler(svc, clock))
  }

  /** Unfolds `RunWith` once. */
  lemma RunStep<C>(m: MonitorState, polls: seq<Poll<C>>, handlers: HandlerFor<C>)
    requires |polls| > 0
    ensures var c := CycleWith(m, polls[0], handlers(polls[0].clock));
            var rest := RunWith(c.state, polls[1..], handlers);
            RunWith(m, polls, handlers) == CycleResult(rest.state, c.reports + rest.reports)
  {
  }

  lemma RecordsAfter(exported: seq<StructuredRecord>, a: seq<RowReport>, b: seq<RowReport>)
    ensures (exported + RecordsOf(a)) + RecordsOf(b) == exported + RecordsOf(a + b)
  {
    RecordsOfAppend(a, b);
  }

  /** Across successive cycles the offset never decreases. */
  lemma {:induction false} RunOffsetGrows<C>(m: MonitorState, polls: seq<Poll<C>>, handlers: HandlerFor<C>)
    ensures RunWith(m, polls, handlers).state.lastProcessedRow >= m.lastProcessedRow
    decreases |polls|
  {
    if |polls| > 0 {
      var c := CycleWith(m, polls[0], handlers(polls[0].clock));
      RunStep(m, polls, handlers);
      RunOffsetGrows(c.state, polls[1..], handlers);
    }
  }

  /** Across successive cycles the offset never decreases and the export grows
      by exactly the records of the processed rows, in processing order. */
  lemma {:induction false} RunKeepsExport<C>(m: MonitorState, polls: seq<Poll<C>>, handlers: HandlerFor<C>)
    ensures var r := RunWith(m, polls, handlers);
            && r.state.lastProcessedRow >= m.lastProcessedRow
            && r.state.records == m.records + RecordsOf(r.reports)
    decreases |polls|
  {
    if |polls| > 0 {
      var c := CycleWith(m, polls[0], handlers(polls[0].clock));
      RunStep(m, polls, handlers);
      RunKeepsExport(c.state, polls[1..], handlers);
      RecordsAfter(m.records, c.reports, RunWith(c.state, polls[1..], handlers).reports);
    }
  }

  /** The reports carry consecutive row numbers starting at `lo`. */
  predicate NumberedFrom(reports: seq<RowReport>, lo: int)
  {
    forall k :: 0 <= k < |reports| ==> reports[k].rowNumber == lo + k
  }

  lemma NumberedConcat(a: seq<RowReport>, b: seq<RowReport>, lo: int)
    requires NumberedFrom(a, lo) && NumberedFrom(b, lo + |a|)
    ensures NumberedFrom(a + b, lo)
  {
    forall k | 0 <= k < |a + b|
      ensures (a + b)[k].rowNumber == lo + k
    {
      if k >= |a| {
        assert (a + b)[k] == b[k - |a|];
      }
    }
  }

  /** Starting from offset `before`, the reports are exactly the rows
      `max(2, before + 1) .. final offset`, in ascending order. */
  predicate ProcessedOnce(r: CycleResult, before: nat)
  {
    var lo := Max(2, before + 1);
    |r.reports| == Max(0, r.state.lastProcessedRow + 1 - lo) && NumberedFrom(r.reports, lo)
  }

  /** One more cycle in front of a run that processed its rows once. */
  lemma RunStepProcessedOnce<C>(m: MonitorState, polls: seq<Poll<C>>, handlers: HandlerFor<C>)
    requires |polls| > 0
    requires var c := CycleWith(m, polls[0], handlers(polls[0].clock));
             ProcessedOnce(RunWith(c.state, polls[1..], handlers), c.state.lastProcessedRow)
    ensures ProcessedOnce(RunWith(m, polls, handlers), m.lastProcessedRow)
  {
    var c := CycleWith(m, polls[0], handlers(polls[0].clock));
    var rest := RunWith(c.state, polls[1..], handlers);
    RunStep(m, polls, handlers);
    RunOffsetGrows(c.state, polls[1..], handlers);
    CycleShape(m, polls[0], handlers(polls[0].clock));
    var lo := Max(2, m.lastProcessedRow + 1);
    if c.state.lastProcessedRow == m.lastProcessedRow {
      assert c.reports + rest.reports == rest.reports;
    } else {
      NumberedConcat(c.reports, rest.reports, lo);
    }
  }

  /** Across successive cycles the sheet positions processed are exactly
      `max(2, last + 1) .. final offset`, each once and in ascending order,
      whatever the sheet did in between (a failed fetch, a header-only sheet,
      a shrunken sheet). Positions are not submissions: after rows are deleted,
      a submission that lands at a position up to the offset is never
      processed, since only the sheet's length is compared with the offset. */
  lemma {:induction false} RunProcessesEachRowOnce<C>(m: MonitorState, polls: seq<Poll<C>>, handlers: HandlerFor<C>)
    ensures ProcessedOnce(RunWith(m, polls, handlers), m.lastProcessedRow)
    decreases |polls|
  {
    if |polls| > 0 {
      var c := CycleWith(m, polls[0], handlers(polls[0].clock));
      RunProcessesEachRowOnce(c.state, polls[1..], handlers);
      RunStepProcessedOnce(m, polls, handlers);
    } else {
      assert RunWith(m, polls, handlers) == CycleResult(m, []);
    }
  }

  /** The pipeline's loop processes every sheet position past the starting
      offset up to the final one once, in order, and its export holds exactly
      the records of the processed rows. */
  lemma RunPipeline(m: MonitorState, polls: seq<Poll<Clock>>, svc: Services)
    ensures var r := Run(m, polls, svc);
            var lo := Max(2, m.lastProcessedRow + 1);
            && r.state.lastProcessedRow >= m.lastProcessedRow
            && r.state.records == m.records + RecordsOf(r.reports)
            && |r.reports| == Max(0, r.state.lastProcessedRow + 1 - lo)
            && NumberedFrom(r.reports, lo)
  {
    RunKeepsExport(m, polls, clock => Handler(svc, clock));
    RunProcessesEachRowOnce(m, polls, clock => Handler(svc, clock));
  }
}

=== FILE: records.dfy ===
/** The structured record builder: the export entry kept for downstream indexing. */
module Records {
  import opened Wrappers
  import opened Text
  import opened Submissions
  import opened Translation

  /** An original text and its translation. */
  datatype Bilingual = Bilingual(original: string, translated: string)

  datatype TagSets = TagSets(affirmative: seq<string>, negative: seq<string>)

  datatype SourceInfo = SourceInfo(url: string, updateDate: string, engSource: string)

  datatype Metadata = Metadata(attachment: string, remark: string, processedAt: string)

  /** One `entry_<n>` of the structured export. */
  datatype StructuredRecord = StructuredRecord(
    id: string,
    timestamp: string,
    submitter: string,
    title: Bilingual,
    quote: Bilingual,
    tags: TagSets,
    source: SourceInfo,
    metadata: Metadata)

  const IdPrefix: string := "entry_"

  /** `entry_<n>`. */
  function RecordId(n: int): string
  {
    IdPrefix + IntToString(n)
  }

  /** The number an id was built from, when it has the `entry_` form. */
  function IdNumber(id: string): Option<int>
  {
    if |id| >= |IdPrefix| && id[..|IdPrefix|] == IdPrefix then LeadingInt(id[|IdPrefix|..])
    else None
  }

  /** Two ids are equal exactly when their entry numbers are. */
  lemma RecordIdInjective(a: int, b: int)
    ensures RecordId(a) == RecordId(b) <==> a == b
  {
    IntToStringInjective(a, b);
    if RecordId(a) == RecordId(b) {
      assert RecordId(a)[|IdPrefix|..] == IntToString(a);
      assert RecordId(b)[|IdPrefix|..] == IntToString(b);
    }
  }

  /** The submission a record was built from: every original field is kept. */
  function SubmissionOf(r: StructuredRecord): Submission
  {
    Submission(r.timestamp, r.submitter, r.title.original, r.tags.affirmative, r.tags.negative,
               r.source.url, r.source.updateDate, r.source.engSource, r.quote.original,
               r.metadata.attachment, r.metadata.remark)
  }

  /** `prepare_structured_data`: the id reads back as `n`; the record keeps the
      whole submission (so it can be recovered from it); title and quote carry
      the translator's output on the originals; `processed_at` is the clock
      reading passed in. */
  function BuildRecord(sub: Submission, n: int, translator: Translator, now: string)
    : (r: StructuredRecord)
    ensures IdNumber(r.id) == Some(n)
    ensures SubmissionOf(r) == sub
    ensures r.title.translated == Translate(sub.title, translator)
    ensures r.quote.translated == Translate(sub.quote, translator)
    ensures r.metadata.processedAt == now
  {
    assert RecordId(n)[..|IdPrefix|] == IdPrefix;
    assert RecordId(n)[|IdPrefix|..] == IntToString(n) + "";
    LeadingIntOfIntToString(n, "");
    StructuredRecord(
      RecordId(n),
      sub.timestamp,
      sub.submitter,
      Bilingual(sub.title, Translate(sub.title, translator)),
      Bilingual(sub.quote, Translate(sub.quote, translator)),
      TagSets(sub.affTags, sub.negTags),
      SourceInfo(sub.sourceUrl, sub.updateDate, sub.engSource),
      Metadata(sub.attachment, sub.remark, now))
  }

  /** Two records get the same id exactly when they are built for the same entry
      number; the builder itself does not deduplicate. */
  lemma BuildRecordIds(s1: Submission, n1: int, s2: Submission, n2: int,
                       tr1: Translator, tr2: Translator, now1: string, now2: string)
    ensures BuildRecord(s1, n1, tr1, now1).id == BuildRecord(s2, n2, tr2, now2).id <==> n1 == n2
  {
    var a := BuildRecord(s1, n1, tr1, now1);
    var b := BuildRecord(s2, n2, tr2, now2);
    assert IdNumber(a.id) == Some(n1) && IdNumber(b.id) == Some(n2);
  }
}

=== FILE: service.dfy ===
/** The web service's per-submission orchestration: a submission dictionary
    received as JSON goes to the document sink, then to the chat webhook, then
    into the structured export; plus the mapping from a form-webhook payload to
    a sheet row. */
module Service {
  import opened Wrappers
  import opened Text
  import opened Submissions
  import opened Translation
  import opened Formatting
  import opened Records
  import opened Delivery

  // ---------------------------------------------------------------------------
  // Submission dictionaries

  /** The keys of a submission dictionary. */
  datatype Key = Timestamp | Submitter | Title | AffTags | NegTags | SourceUrl
               | UpdateDate | EngSource | Quote | Attachment | Remark

  /** A submission dictionary as the service receives it: the values of the keys
      it carries (the values of absent keys are never read). */
  datatype Payload = Payload(values: Submission, present: set<Key>)

  const AllKeys: set<Key> :=
    {Timestamp, Submitter, Title, AffTags, NegTags, SourceUrl, UpdateDate, EngSource, Quote,
     Attachment, Remark}

  /** The keys the document sink reads. */
  const DocKeys: set<Key> :=
    {Quote, Title, Submitter, AffTags, NegTags, UpdateDate, EngSource, SourceUrl}

  /** The keys the webhook sink reads before it posts. */
  const NotificationKeys: set<Key> :=
    {Quote, AffTags, NegTags, Attachment, Remark, Submitter, UpdateDate, SourceUrl, Title}

  /** The order in which the record builder reads the keys; the first absent one
      is the `KeyError` that aborts processing. */
  const RecordKeyOrder: seq<Key> :=
    [Title, Quote, Timestamp, Submitter, AffTags, NegTags, SourceUrl, UpdateDate, EngSource,
     Attachment, Remark]

  /** The dictionary the extractor produces: every key present. */
  function Complete(sub: Submission): Payload
  {
    Payload(sub, AllKeys)
  }

  // ---------------------------------------------------------------------------
  // Services

  /** The webhook POST, as a function of the URL and the message content. */
  type WebhookPost = (string, string) -> PostReply

  /** The service's collaborators: the translation provider, the configured
      webhook URL (`None` when the variable is unset) and the POST. */
  datatype Config = Config(provider: Provider, webhookUrl: Option<string>, post: WebhookPost)

  /** `if not self.discord_webhook_url`: unset and empty both count as missing. */
  predicate Configured(url: Option<string>)
  {
    url.Some? && url.value != ""
  }

  /** The service always has a translation provider. */
  function ServiceTranslator(cfg: Config): Translator
  {
    Some(cfg.provider)
  }

  // ---------------------------------------------------------------------------
  // Document sink

  /** `add_to_docs`: the prepared entry, or `None` (the method's `False`) when a
      key it reads is absent. The entry is the formatted entry `n` of the
      submission with its quote translated by the service's provider. The
      method itself only builds title, tags and table; the `remark` and
      `attachment` fields of the shared entry type are filled from the
      submission as the pipeline's sink does, although this sink neither
      reads those keys nor uses them. */
  function AddToDocs(n: int, p: Payload, cfg: Config): (r: Option<DocumentEntry>)
    ensures r.Some? <==> DocKeys <= p.present
    ensures r.Some? ==> r.value == FormatDocumentEntry(n, p.values, Translate(p.values.quote, ServiceTranslator(cfg)))
    ensures r.Some? ==> LeadingInt(r.value.title) == Some(n)
    ensures r.Some? ==> DocTableHead(n, p.values) <= r.value.table
    ensures r.Some? ==> "#" + p.values.submitter <= r.value.tags
  {
    if DocKeys <= p.present then
      Some(FormatDocumentEntry(n, p.values, Translate(p.values.quote, ServiceTranslator(cfg))))
    else None
  }

  // ---------------------------------------------------------------------------
  // Webhook sink

  /** What the webhook sink did: nothing for want of a URL, nothing because a key
      it reads is absent, or one POST of `content` answered with `reply`. */
  datatype NotificationAttempt =
    | NotConfigured
    | KeyMissing
    | Posted(content: string, reply: PostReply)

  /** `send_discord_notification`: without a URL nothing is read or posted;
      otherwise the message is posted to the configured URL when every key it
      reads is present. The posted content is the notification text of entry
      `n` with the quote translated by the service's provider. */
  function SendNotification(n: int, p: Payload, cfg: Config): (a: NotificationAttempt)
    ensures a.NotConfigured? <==> !Configured(cfg.webhookUrl)
    ensures a.KeyMissing? <==> Configured(cfg.webhookUrl) && !(NotificationKeys <= p.present)
    ensures a.Posted? ==> LeadingInt(a.content) == Some(n)
    ensures a.Posted? ==> TitleLine(n, p.values.title, p.values.submitter) + "\n" <= a.content
    ensures a.Posted? ==> a.content == NotificationContent(n, p.values, Translate(p.values.quote, ServiceTranslator(cfg)))
    ensures a.Posted? ==> a.reply == cfg.post(cfg.webhookUrl.value, a.content)
  {
    if !Configured(cfg.webhookUrl) then NotConfigured
    else if !(NotificationKeys <= p.present) then KeyMissing
    else
      var content := NotificationContent(n, p.values, Translate(p.values.quote, ServiceTranslator(cfg)));
      Posted(content, cfg.post(cfg.webhookUrl.value, content))
  }

  /** The method's boolean: `True` only for a POST answered with 204. */
  function Sent(a: NotificationAttempt): (b: bool)
    ensures b ==> a.Posted?
  {
    a.Posted? && Accepted(a.reply)
  }

  // ---------------------------------------------------------------------------
  // Structured export

  /** Position of the first key of `order` that is absent from `present`
      (`|order|` when all are present). */
  function FirstAbsent(order: seq<Key>, present: set<Key>): (i: nat)
    ensures i <= |order|
    ensures forall j :: 0 <= j < i ==> order[j] in present
    ensures i < |order| ==> order[i] !in present
    decreases |order|
  {
    if |order| == 0 then 0
    else if order[0] !in present then 0
    else 1 + FirstAbsent(order[1..], present)
  }

  /** Every key is one of the eleven and has its place in the record order. */
  lemma KeyListed(k: Key)
    ensures k in AllKeys && k in RecordKeyOrder
  {
    match k
    case Title => assert RecordKeyOrder[0] == k;
    case Quote => assert RecordKeyOrder[1] == k;
    case Timestamp => assert RecordKeyOrder[2] == k;
    case Submitter => assert RecordKeyOrder[3] == k;
    case AffTags => assert RecordKeyOrder[4] == k;
    case NegTags => assert RecordKeyOrder[5] == k;
    case SourceUrl => assert RecordKeyOrder[6] == k;
    case UpdateDate => assert RecordKeyOrder[7] == k;
    case EngSource => assert RecordKeyOrder[8] == k;
    case Attachment => assert RecordKeyOrder[9] == k;
    case Remark => assert RecordKeyOrder[10] == k;
  }

  /** The record order names every key, so the record is built exactly when the
      dictionary is complete. */
  lemma RecordOrderCovers(present: set<Key>)
    ensures FirstAbsent(RecordKeyOrder, present) == |RecordKeyOrder| <==> AllKeys <= present
  {
    var i := FirstAbsent(RecordKeyOrder, present);
    if i == |RecordKeyOrder| {
      forall k | k in AllKeys
        ensures k in present
      {
        KeyListed(k);
      }
    } else {
      KeyListed(RecordKeyOrder[i]);
    }
  }

  /** `prepare_structured_data` on a dictionary: the record, or the first key it
      reads that is absent. A built record is the record of entry `n` with the
      title and quote translated by the service's provider: it reads back as
      entry `n`, keeps the whole submission and carries the clock reading. */
  function PrepareStructuredData(p: Payload, n: int, cfg: Config, now: string)
    : (r: Result<StructuredRecord, Key>)
    ensures r.Success? <==> AllKeys <= p.present
    ensures r.Success? ==> IdNumber(r.value.id) == Some(n) && SubmissionOf(r.value) == p.values
    ensures r.Success? ==> r.value.metadata.processedAt == now
    ensures r.Success? ==> r.value == BuildRecord(p.values, n, ServiceTranslator(cfg), now)
    ensures r.Failure? ==> r.error !in p.present
  {
    RecordOrderCovers(p.present);
    var i := FirstAbsent(RecordKeyOrder, p.present);
    if i < |RecordKeyOrder| then Failure(RecordKeyOrder[i])
    else Success(BuildRecord(p.values, n, ServiceTranslator(cfg), now))
  }

  // ---------------------------------------------------------------------------
  // Processing one submission

  /** The result dictionary of `process_submission`. */
  datatype Outcome =
    | Succeeded(entryNumber: int, docsAdded: bool, discordSent: bool, record: StructuredRecord)
    | Failed(missing: Key)

  /** The result, what the webhook sink did, and the export afterwards. */
  datatype Processing =
    Processing(outcome: Outcome, notification: NotificationAttempt, exported: seq<StructuredRecord>)

  /** `process_submission`: both sinks are attempted, each swallowing its own
      failure; the record builder's `KeyError` is the only failure of the whole
      call. On success exactly one record (entry `n`, carrying the submission) is
      appended and the two sink flags are reported separately; on failure the
      export is unchanged. */
  function ProcessSubmission(exported: seq<StructuredRecord>, p: Payload, n: int, cfg: Config,
                             now: string): (r: Processing)
    ensures r.outcome.Succeeded? <==> AllKeys <= p.present
    ensures r.notification == SendNotification(n, p, cfg)
    ensures r.outcome.Succeeded? ==>
              && r.exported == exported + [r.outcome.record]
              && r.outcome.entryNumber == n
              && r.outcome.docsAdded
              && (r.outcome.discordSent <==> Sent(r.notification))
              && IdNumber(r.outcome.record.id) == Some(n)
              && SubmissionOf(r.outcome.record) == p.values
    ensures r.outcome.Failed? ==> r.exported == exported && r.outcome.missing !in p.present
  {
    var docs := AddToDocs(n, p, cfg);
    var note := SendNotification(n, p, cfg);
    match PrepareStructuredData(p, n, cfg, now)
    case Success(record) =>
      Processing(Succeeded(n, docs.Some?, Sent(note), record), note, exported + [record])
    case Failure(key) =>
      Processing(Failed(key), note, exported)
  }

  /** The export only ever grows, by one record per successful call. */
  lemma ProcessSubmissionGrows(exported: seq<StructuredRecord>, p: Payload, n: int, cfg: Config,
                               now: string)
    ensures var r := ProcessSubmission(exported, p, n, cfg, now);
            exported <= r.exported
            && |r.exported| == |exported| + (if r.outcome.Succeeded? then 1 else 0)
  {
  }

  /** An extracted submission always succeeds; the webhook flag is true exactly
      when a URL is configured and the POST is answered with 204. */
  lemma CompleteSucceeds(exported: seq<StructuredRecord>, sub: Submission, n: int, cfg: Config,
                         now: string)
    ensures var r := ProcessSubmission(exported, Complete(sub), n, cfg, now);
            && r.outcome.Succeeded?
            && r.outcome.docsAdded
            && (r.outcome.discordSent <==>
                  Configured(cfg.webhookUrl) && Accepted(r.notification.reply))
  {
  }

  /** The sinks are independent of the export: a dictionary missing only the
      timestamp is posted to a configured webhook although it fails and leaves
      no record. */
  lemma PostedButNotRecorded(exported: seq<StructuredRecord>, sub: Submission, n: int,
                             cfg: Config, now: string)
    requires Configured(cfg.webhookUrl)
    ensures var r := ProcessSubmission(exported, Payload(sub, AllKeys - {Timestamp}), n, cfg, now);
            && r.outcome == Failed(Timestamp)
            && r.notification.Posted?
            && r.exported == exported
  {
    var p := Payload(sub, AllKeys - {Timestamp});
    assert RecordKeyOrder[0] in p.present && RecordKeyOrder[1] in p.present;
    assert FirstAbsent(RecordKeyOrder, p.present) == 2 by {
      assert FirstAbsent(RecordKeyOrder[2..], p.present) == 0;
      assert FirstAbsent(RecordKeyOrder[1..], p.present) == 1 by {
        assert RecordKeyOrder[1..][1..] == RecordKeyOrder[2..];
      }
    }
  }

  // ---------------------------------------------------------------------------
  // Form webhook

  /** Google Forms' `namedValues`: each question title with its list of answers. */
  type NamedValues = map<string, seq<string>>

  /** The question titles, in the column order of the sheet. */
  const FormKeys: seq<string> := [
    "タイムスタンプ",
    "名前",
    "title",
    "AFF tags",
    "NEG tags",
    "URL of the Quotation",
    "The source, Update date, and Time(引用元・更新日時)",
    "Eng Source",
    "Quoted text(引用本文)",
    "Attachments(添付ファイル)",
    "Remarks(備考)"
  ]

  /** `named_values.get(key, [''])[0]`: the first answer, `""` for an absent
      title, and `None` for the `IndexError` of an empty answer list. */
  function FirstAnswer(nv: NamedValues, key: string): Option<string>
  {
    if key !in nv then Some("")
    else if |nv[key]| == 0 then None
    else Some(nv[key][0])
  }

  /** The cells for `keys`, in order, or `None` when one of them fails. */
  function Cells(nv: NamedValues, keys: seq<string>): (r: Option<Row>)
    ensures r.Some? <==> forall i :: 0 <= i < |keys| ==> FirstAnswer(nv, keys[i]).Some?
    ensures r.Some? ==> |r.value| == |keys|
    ensures r.Some? ==> forall i :: 0 <= i < |keys| ==> r.value[i] == FirstAnswer(nv, keys[i]).value
    decreases |keys|
  {
    if |keys| == 0 then Some([])
    else
      match FirstAnswer(nv, keys[0])
      case None => None
      case Some(cell) =>
        match Cells(nv, keys[1..])
        case None => None
        case Some(rest) => Some([cell] + rest)
  }

  /** The row built from a form payload: always eleven cells, one per question
      title in column order, unless some answer list is empty. */
  function FormRow(nv: NamedValues): (r: Option<Row>)
    ensures r.Some? <==> forall i :: 0 <= i < FieldCount ==> FirstAnswer(nv, FormKeys[i]).Some?
    ensures r.Some? ==> |r.value| == FieldCount
  {
    Cells(nv, FormKeys)
  }

  /** The payload a form response with one answer per question sends. */
  function NamedValuesOf(row: Row): NamedValues
    requires |row| == FieldCount
  {
    map[FormKeys[0] := [row[0]], FormKeys[1] := [row[1]], FormKeys[2] := [row[2]],
        FormKeys[3] := [row[3]], FormKeys[4] := [row[4]], FormKeys[5] := [row[5]],
        FormKeys[6] := [row[6]], FormKeys[7] := [row[7]], FormKeys[8] := [row[8]],
        FormKeys[9] := [row[9]], FormKeys[10] := [row[10]]]
  }

  /** The mapping inverts the form's own encoding: a submission sent as
      `namedValues` comes back as its row, and extracting that row gives the
      submission back whenever its tag lists are well formed. */
  lemma FormRowRoundTrip(s: Submission)
    ensures FormRow(NamedValuesOf(ToRow(s))) == Some(ToRow(s))
    ensures Extract(ToRow(s)) == Success(s) <==> WellFormed(s)
  {
    var row := ToRow(s);
    var nv := NamedValuesOf(row);
    forall i | 0 <= i < FieldCount
      ensures FirstAnswer(nv, FormKeys[i]) == Some(row[i])
    {
    }
    var r := FormRow(nv);
    assert r.Some?;
    assert r.value == row;
    ExtractToRow(s);
  }

  /** The reply of the form webhook route. */
  datatype WebhookResponse =
    | Handled(result: Processing)
    | ExtractionRejected   // 400 'Failed to extract submission data'
    | InvalidFormat        // 400 'Invalid webhook data format'
    | ServerError          // 500, the IndexError of an empty answer list

  /** `form_submit_webhook` after the service check, for a JSON object body
      whose answers are lists of strings: an object without `namedValues` is
      rejected; otherwise the eleven-cell row is extracted and processed as
      entry 1. For such answers the extraction-failure reply can never be
      produced, and a handled payload always succeeds with record id `entry_1`. */
  function FormSubmit(namedValues: Option<NamedValues>, exported: seq<StructuredRecord>,
                      cfg: Config, now: string): (r: WebhookResponse)
    ensures namedValues.None? ==> r == InvalidFormat
    ensures !r.ExtractionRejected?
    ensures r.Handled? <==> namedValues.Some? && FormRow(namedValues.value).Some?
    ensures r.ServerError? <==> namedValues.Some? && FormRow(namedValues.value).None?
    ensures r.Handled? ==>
              && r.result.outcome.Succeeded?
              && r.result.outcome.entryNumber == 1
              && IdNumber(r.result.outcome.record.id) == Some(1)
              && |r.result.exported| == |exported| + 1
  {
    match namedValues
    case None => InvalidFormat
    case Some(nv) =>
      match FormRow(nv)
      case None => ServerError
      case Some(row) =>
        match Extract(row)
        case Success(sub) => Handled(ProcessSubmission(exported, Complete(sub), 1, cfg, now))
        case Failure(_) => ExtractionRejected
  }
}

=== FILE: submission.dfy ===
/** The record extractor: one raw form-response row becomes one typed submission,
    or an extraction failure when the row is too short. */
module Submissions {
  import opened Wrappers
  import opened Text

  /** A row of the response sheet: its cells, left to right. */
  type Row = seq<string>

  /** Number of positional fields a row must carry. */
  const FieldCount: nat := 11

  /** A form submission. Field order is the column order of the sheet:
      timestamp, submitter, title, AFF tags, NEG tags, source URL, update date,
      English source label, quote, attachment, remark. */
  datatype Submission = Submission(
    timestamp: string,
    submitter: string,
    title: string,
    affTags: seq<string>,
    negTags: seq<string>,
    sourceUrl: string,
    updateDate: string,
    engSource: string,
    quote: string,
    attachment: string,
    remark: string)

  /** The only way extraction fails: fewer than eleven columns. */
  datatype ExtractionFailure = InsufficientColumns(observed: nat)

  /** A tag field as the extractor reads it: empty gives no tags, anything else
      is split on `", "`. The tags rejoined with `", "` give the field back,
      and no tag contains the separator. */
  function ParseTags(field: string): (tags: seq<string>)
    ensures tags == [] <==> field == ""
    ensures Join(tags, ListSep) == field
    ensures forall k :: 0 <= k < |tags| ==> SepFree(tags[k])
  {
    if field == "" then []
    else
      SplitJoinRoundTrip(field);
      SplitPartsSepFree(field);
      Split(field)
  }

  /** A tag list that some tag field produces: empty, or separator-free tags
      other than the single empty tag. */
  predicate WellFormedTags(tags: seq<string>)
  {
    tags != [""] && forall k :: 0 <= k < |tags| ==> SepFree(tags[k])
  }

  /** Writing tags back into a field and reading them again gives the same tags
      exactly when the tags are well formed. */
  lemma ParseTagsOfJoin(tags: seq<string>)
    ensures ParseTags(Join(tags, ListSep)) == tags <==> WellFormedTags(tags)
  {
    if WellFormedTags(tags) && tags != [] {
      if |tags| == 1 {
        assert Join(tags, ListSep) == tags[0] != "";
      } else {
        assert |Join(tags, ListSep)| >= 2;
      }
      SplitOfJoin(tags);
    }
  }

  /** The eleven cells of a submission, tag lists written back with `", "`. */
  function ToRow(s: Submission): (row: Row)
    ensures |row| == FieldCount
  {
    [s.timestamp, s.submitter, s.title, Join(s.affTags, ListSep), Join(s.negTags, ListSep),
     s.sourceUrl, s.updateDate, s.engSource, s.quote, s.attachment, s.remark]
  }

  /** Every submission an extraction can produce has well-formed tag lists. */
  predicate WellFormed(s: Submission)
  {
    WellFormedTags(s.affTags) && WellFormedTags(s.negTags)
  }

  /** `extract_submission_data`: fails iff the row is shorter than eleven cells,
      reporting the observed length; otherwise the first eleven cells map
      positionally onto the submission (so writing it back gives those cells)
      and extra columns are ignored. */
  function Extract(row: Row): (r: Result<Submission, ExtractionFailure>)
    ensures r.Failure? <==> |row| < FieldCount
    ensures r.Failure? ==> r.error == InsufficientColumns(|row|)
    ensures r.Success? ==> ToRow(r.value) == row[..FieldCount] && WellFormed(r.value)
    ensures r.Success? ==> r.value.affTags == ParseTags(row[3]) && r.value.negTags == ParseTags(row[4])
  {
    if |row| < FieldCount then Failure(InsufficientColumns(|row|))
    else
      var s := Submission(row[0], row[1], row[2], ParseTags(row[3]), ParseTags(row[4]),
                          row[5], row[6], row[7], row[8], row[9], row[10]);
      ParseTagsOfJoin(s.affTags);
      ParseTagsOfJoin(s.negTags);
      Success(s)
  }

  /** Extraction only looks at the first eleven cells. */
  lemma ExtractIgnoresExtraColumns(row: Row)
    requires |row| >= FieldCount
    ensures Extract(row) == Extract(row[..FieldCount])
  {
  }

  /** Extraction inverts `ToRow` on every well-formed submission, and on those only. */
  lemma ExtractToRow(s: Submission)
    ensures Extract(ToRow(s)) == Success(s) <==> WellFormed(s)
  {
    ParseTagsOfJoin(s.affTags);
    ParseTagsOfJoin(s.negTags);
  }
}

=== FILE: text.dfy ===
/** String primitives the pipeline relies on: Python's `str.split(", ")`, `", ".join`,
    and the decimal rendering of integers used in titles and record ids. */
module Text {
  import opened Wrappers

  /** The list separator of the tag fields. */
  const ListSep: string := ", "

  /** True iff the list separator `", "` starts at index `i` of `s`. */
  predicate SepAt(s: string, i: int)
  {
    0 <= i && i + 1 < |s| && s[i] == ',' && s[i + 1] == ' '
  }

  /** `s` contains no occurrence of the list separator. */
  predicate SepFree(s: string)
  {
    forall i :: 0 <= i < |s| ==> !SepAt(s, i)
  }

  /** Python's `s.split(", ")`: cut at every occurrence of the separator, scanning
      left to right. The first part is always a prefix of `s`. */
  function Split(s: string): (parts: seq<string>)
    ensures |parts| >= 1
    ensures parts[0] <= s
    decreases |s|
  {
    if |s| < 2 then [s]
    else if SepAt(s, 0) then [""] + Split(s[2..])
    else
      var rest := Split(s[1..]);
      [[s[0]] + rest[0]] + rest[1..]
  }

  /** Python's `sep.join(parts)`. */
  function Join(parts: seq<string>, sep: string): string
    decreases |parts|
  {
    if |parts| == 0 then ""
    else if |parts| == 1 then parts[0]
    else parts[0] + sep + Join(parts[1..], sep)
  }

  /** Rewrites every occurrence of `", "` in `s` by `repl`, scanning left to right. */
  function ReplaceSep(s: string, repl: string): string
    decreases |s|
  {
    if |s| < 2 then s
    else if SepAt(s, 0) then repl + ReplaceSep(s[2..], repl)
    else [s[0]] + ReplaceSep(s[1..], repl)
  }

  lemma JoinConsChar(c: char, rest: seq<string>, sep: string)
    requires |rest| >= 1
    ensures Join([[c] + rest[0]] + rest[1..], sep) == [c] + Join(rest, sep)
  {
    var parts := [[c] + rest[0]] + rest[1..];
    if |rest| > 1 {
      assert parts[1..] == rest[1..];
    }
  }

  /** Splitting on `", "` and joining with `repl` is the same as rewriting each
      separator occurrence to `repl`. */
  lemma {:induction false} JoinSplit(s: string, repl: string)
    ensures Join(Split(s), repl) == ReplaceSep(s, repl)
    decreases |s|
  {
    if |s| < 2 {
    } else if SepAt(s, 0) {
      var t := Split(s[2..]);
      var parts := [""] + t;
      assert Split(s) == parts;
      JoinSplit(s[2..], repl);
      assert |parts| >= 2 && parts[0] == "" && parts[1..] == t;
      assert Join(parts, repl) == "" + repl + Join(t, repl);
    } else {
      var rest := Split(s[1..]);
      assert Split(s) == [[s[0]] + rest[0]] + rest[1..];
      JoinSplit(s[1..], repl);
      JoinConsChar(s[0], rest, repl);
      assert ReplaceSep(s, repl) == [s[0]] + ReplaceSep(s[1..], repl);
    }
  }

  lemma {:induction false} ReplaceSepByItself(s: string)
    ensures ReplaceSep(s, ListSep) == s
    decreases |s|
  {
    if |s| < 2 {
    } else if SepAt(s, 0) {
      ReplaceSepByItself(s[2..]);
      assert s == s[..2] + s[2..];
    } else {
      ReplaceSepByItself(s[1..]);
      assert s == [s[0]] + s[1..];
    }
  }

  /** Joining the parts back with the separator gives the string that was split. */
  lemma SplitJoinRoundTrip(s: string)
    ensures Join(Split(s), ListSep) == s
  {
    JoinSplit(s, ListSep);
    ReplaceSepByItself(s);
  }

  lemma SepFreeTail(s: string)
    requires |s| >= 1 && SepFree(s)
    ensures SepFree(s[1..])
  {
    forall i | 0 <= i < |s[1..]|
      ensures !SepAt(s[1..], i)
    {
      assert !SepAt(s, i + 1);
    }
  }

  /** No part produced by `Split` contains the separator. */
  lemma {:induction false} SplitPartsSepFree(s: string)
    ensures forall k :: 0 <= k < |Split(s)| ==> SepFree(Split(s)[k])
    decreases |s|
  {
    if |s| < 2 {
    } else if SepAt(s, 0) {
      SplitPartsSepFree(s[2..]);
      var t := Split(s[2..]);
      assert Split(s) == [""] + t;
      forall k | 0 <= k < |Split(s)|
        ensures SepFree(Split(s)[k])
      {
        if k > 0 { assert Split(s)[k] == t[k - 1]; }
      }
    } else {
      SplitPartsSepFree(s[1..]);
      var rest := Split(s[1..]);
      var head := [s[0]] + rest[0];
      assert SepFree(rest[0]);
      forall i | 0 <= i < |head|
        ensures !SepAt(head, i)
      {
        if i == 0 {
          if |rest[0]| >= 1 {
            assert head[1] == rest[0][0] == s[1];
          }
        } else {
          assert !SepAt(rest[0], i - 1);
        }
      }
      assert Split(s) == [head] + rest[1..];
      forall k | 0 <= k < |Split(s)|
        ensures SepFree(Split(s)[k])
      {
        if k > 0 { assert Split(s)[k] == rest[k]; }
      }
    }
  }

  lemma {:induction false} SplitSepFree(p: string)
    requires SepFree(p)
    ensures Split(p) == [p]
    decreases |p|
  {
    if |p| >= 2 {
      assert !SepAt(p, 0);
      SepFreeTail(p);
      SplitSepFree(p[1..]);
      assert [p[0]] + p[1..] == p;
    }
  }

  lemma {:induction false} SplitAfterPart(p: string, t: string)
    requires SepFree(p)
    ensures Split(p + ListSep + t) == [p] + Split(t)
    decreases |p|
  {
    var s := p + ListSep + t;
    if |p| == 0 {
      assert s[2..] == t;
    } else {
      if |p| >= 2 {
        assert !SepAt(p, 0);
        assert s[1] == p[1];
      } else {
        assert s[1] == ',';
      }
      assert !SepAt(s, 0);
      SepFreeTail(p);
      assert s[1..] == p[1..] + ListSep + t;
      SplitAfterPart(p[1..], t);
      assert [p[0]] + p[1..] == p;
    }
  }

  /** Splitting undoes joining, for any non-empty list of separator-free parts: the
      separator-free decomposition of a string is unique. */
  lemma {:induction false} SplitOfJoin(parts: seq<string>)
    requires |parts| >= 1
    requires forall k :: 0 <= k < |parts| ==> SepFree(parts[k])
    ensures Split(Join(parts, ListSep)) == parts
    decreases |parts|
  {
    if |parts| == 1 {
      SplitSepFree(parts[0]);
    } else {
      SplitOfJoin(parts[1..]);
      SplitAfterPart(parts[0], Join(parts[1..], ListSep));
      assert [parts[0]] + parts[1..] == parts;
    }
  }

  /** Both parts of a concatenation can be cut back out of it. */
  lemma ConcatParts(a: string, b: string)
    ensures a <= a + b && (a + b)[|a|..] == b
  {
  }

  /** `s` ends with `suffix`. */
  predicate EndsWith(s: string, suffix: string)
  {
    |suffix| <= |s| && s[|s| - |suffix|..] == suffix
  }

  /** `a + (b + c)` is `a`, then `b`, then `c`: each part can be read back at
      its place. */
  lemma Sandwich(a: string, b: string, c: string)
    ensures var s := a + (b + c);
            && a <= s
            && EndsWith(s, c)
            && |s| == |a| + |b| + |c|
            && s[|a|..|a| + |b|] == b
  {
    var s := a + (b + c);
    assert s[|a|..] == b + c;
    assert s[|a|..][..|b|] == b;
  }

  /** A right-nested concatenation of seven parts starts with its first five and
      ends with its last two. */
  lemma NestedLayout(a: string, b: string, c: string, d: string, e: string, f: string, g: string)
    ensures var s := a + (b + (c + (d + (e + (f + g)))));
            && a + (b + c) <= s
            && a + (b + c) + d + e <= s
            && EndsWith(s, f + g)
            && EndsWith(s, g)
            && |s| == |a + (b + c)| + |d| + |e| + |f + g|
  {
    var s := a + (b + (c + (d + (e + (f + g)))));
    assert s == (a + (b + c) + d + e) + (f + g);
    assert s == (a + (b + c)) + (d + (e + (f + g)));
    assert s == (a + (b + c) + d + e + f) + g;
  }


  // ---------------------------------------------------------------------------
  // Decimal rendering (Python's `str(int)` inside f-strings)

  predicate IsDigit(c: char)
  {
    '0' <= c <= '9'
  }

  predicate AllDigits(s: string)
  {
    forall i :: 0 <= i < |s| ==> IsDigit(s[i])
  }

  /** The value of a decimal digit (zero for any other character). */
  function DigitValue(c: char): nat
  {
    if IsDigit(c) then (c as int) - ('0' as int) else 0
  }

  function DigitChar(d: nat): (c: char)
    requires d < 10
    ensures IsDigit(c) && DigitValue(c) == d
  {
    ((d + '0' as int) as char)
  }

  /** Decimal digits of `n`, most significant first, without leading zeros. */
  function NatToString(n: nat): (r: string)
    ensures |r| >= 1 && AllDigits(r)
    ensures n >= 10 <==> |r| >= 2
    decreases n
  {
    if n < 10 then [DigitChar(n)] else NatToString(n / 10) + [DigitChar(n % 10)]
  }

  /** Python's `str(i)` for an integer: a minus sign, then the digits of `|i|`. */
  function IntToString(i: int): string
  {
    if i < 0 then "-" + NatToString(-i) else NatToString(i)
  }

  /** The number written by a string of decimal digits. */
  function ParseDigits(s: string): nat
    decreases |s|
  {
    if |s| == 0 then 0 else 10 * ParseDigits(s[..|s| - 1]) + DigitValue(s[|s| - 1])
  }

  lemma {:induction false} ParseNatToString(n: nat)
    ensures ParseDigits(NatToString(n)) == n
    decreases n
  {
    if n >= 10 {
      var r := NatToString(n);
      assert r[..|r| - 1] == NatToString(n / 10);
      ParseNatToString(n / 10);
    }
  }

  /** Length of the longest prefix of `s` made of decimal digits. */
  function DigitRun(s: string): (k: nat)
    ensures k <= |s|
    decreases |s|
  {
    if |s| == 0 || !IsDigit(s[0]) then 0 else 1 + DigitRun(s[1..])
  }

  /** The integer a string starts with (an optional minus sign and a run of digits),
      as a reader of a title line recovers it. */
  function LeadingInt(s: string): Option<int>
  {
    if |s| > 0 && s[0] == '-' then
      var k := DigitRun(s[1..]);
      if k == 0 then None else Some(-(ParseDigits(s[1..][..k]) as int))
    else
      var k := DigitRun(s);
      if k == 0 then None else Some(ParseDigits(s[..k]) as int)
  }

  lemma {:induction false} DigitRunOfDigits(d: string, rest: string)
    requires AllDigits(d)
    requires |rest| == 0 || !IsDigit(rest[0])
    ensures DigitRun(d + rest) == |d|
    decreases |d|
  {
    if |d| > 0 {
      assert (d + rest)[1..] == d[1..] + rest;
      DigitRunOfDigits(d[1..], rest);
    }
  }

  lemma LeadingNatOfDigits(d: string, rest: string)
    requires |d| >= 1 && AllDigits(d)
    requires |rest| == 0 || !IsDigit(rest[0])
    ensures DigitRun(d + rest) == |d|
    ensures (d + rest)[..|d|] == d
  {
    DigitRunOfDigits(d, rest);
  }

  /** The number rendered by `IntToString` is read back by `LeadingInt`, whatever
      non-digit text follows it. */
  lemma LeadingIntOfIntToString(i: int, rest: string)
    requires |rest| == 0 || !IsDigit(rest[0])
    ensures LeadingInt(IntToString(i) + rest) == Some(i)
  {
    if i < 0 {
      LeadingNegative(-i, rest);
      assert IntToString(i) == "-" + NatToString(-i);
    } else {
      LeadingNonNegative(i, rest);
    }
  }

  lemma LeadingNonNegative(n: nat, rest: string)
    requires |rest| == 0 || !IsDigit(rest[0])
    ensures LeadingInt(NatToString(n) + rest) == Some(n)
  {
    var d := NatToString(n);
    var s := d + rest;
    assert s[0] == d[0] && IsDigit(d[0]);
    LeadingNatOfDigits(d, rest);
    ParseNatToString(n);
    assert DigitRun(s) == |d| && s[..|d|] == d;
  }

  lemma LeadingNegative(n: nat, rest: string)
    requires n > 0
    requires |rest| == 0 || !IsDigit(rest[0])
    ensures LeadingInt("-" + NatToString(n) + rest) == Some(-(n as int))
  {
    var d := NatToString(n);
    var s := "-" + d + rest;
    assert s[0] == '-';
    assert s[1..] == d + rest;
    LeadingNatOfDigits(d, rest);
    ParseNatToString(n);
    assert DigitRun(s[1..]) == |d| && s[1..][..|d|] == d;
  }

  /** A number written after a label is read back right after the label. */
  lemma LabelledNumber(prefix: string, n: int, after: string)
    requires |after| == 0 || !IsDigit(after[0])
    ensures var t := prefix + (IntToString(n) + after);
            |prefix| <= |t| && LeadingInt(t[|prefix|..]) == Some(n)
  {
    ConcatParts(prefix, IntToString(n) + after);
    LeadingIntOfIntToString(n, after);
  }

  /** Distinct integers render to distinct strings. */
  lemma IntToStringInjective(a: int, b: int)
    ensures IntToString(a) == IntToString(b) <==> a == b
  {
    if IntToString(a) == IntToString(b) {
      LeadingIntOfIntToString(a, "");
      LeadingIntOfIntToString(b, "");
      assert IntToString(a) + "" == IntToString(a);
      assert IntToString(b) + "" == IntToString(b);
    }
  }
}

=== FILE: translate.dfy ===
/** The translator adapter: a best-effort Japanese-to-English translation that
    falls back to the original text whenever no translation is available. */
module Translation {
  import opened Wrappers

  /** What one round trip to the translation provider yields: an error raised by
      the client, or a response whose `translations` list may be missing or empty
      (both read as the empty list). */
  datatype ProviderReply = ProviderError | Reply(translations: seq<string>)

  /** The external provider, translating Japanese to English. */
  type Provider = string -> ProviderReply

  /** The adapter's view of the provider: `None` when no credentials were loaded. */
  type Translator = Option<Provider>

  /** A reply that carries a translation to use. */
  predicate Answered(reply: ProviderReply)
  {
    reply.Reply? && |reply.translations| > 0
  }

  /** Python's `str.isspace` table, which `str.strip()` removes. */
  predicate IsSpace(c: char)
  {
    var n := c as int;
    (0x09 <= n <= 0x0D) || (0x1C <= n <= 0x20) || n == 0x85 || n == 0xA0 || n == 0x1680
    || (0x2000 <= n <= 0x200A) || n == 0x2028 || n == 0x2029 || n == 0x202F || n == 0x205F
    || n == 0x3000
  }

  /** `not text or text.strip() == ''`: the text is empty or whitespace only. */
  predicate Blank(text: string)
  {
    forall i :: 0 <= i < |text| ==> IsSpace(text[i])
  }

  /** The adapter's result together with the number of provider round trips it made. */
  datatype Translated = Translated(text: string, calls: nat)

  /** `translate_text`: blank input and missing credentials short-circuit without
      calling the provider; otherwise one call is made, and its first translation
      is used when there is one, the input being returned on any failure. */
  function TranslateCall(text: string, translator: Translator): (r: Translated)
    ensures r.calls <= 1
    ensures r.calls == 0 <==> Blank(text) || translator.None?
    ensures r.calls == 0 ==> r.text == text
    ensures r.calls == 1 && Answered(translator.value(text)) ==>
              r.text == translator.value(text).translations[0]
    ensures r.text != text ==> r.calls == 1 && Answered(translator.value(text))
  {
    if Blank(text) then Translated(text, 0)
    else match translator
      case None => Translated(text, 0)
      case Some(provider) =>
        match provider(text)
        case ProviderError => Translated(text, 1)
        case Reply(ts) => if |ts| > 0 then Translated(ts[0], 1) else Translated(text, 1)
  }

  /** The translated text alone, as every caller uses it. */
  function Translate(text: string, translator: Translator): string
  {
    TranslateCall(text, translator).text
  }
}

=== FILE: wrappers.dfy ===
/** Failure-compatible wrappers used across the pipeline model. */
module Wrappers {

  /** A value that may be absent (Python's `None`). */
  datatype Option<+T> = None | Some(value: T)

  /** A value or an error, for the operations that the source reports as failing. */
  datatype Result<+T, +E> = Success(value: T) | Failure(error: E)
}
